=== FILE: README.md ===
# Webots navigation core in Dafny

A model of the navigation core of a Webots e-puck simulator project. It covers three parts.

- **A\* planner and path follower** (`path_follower.py`):
  - a 4-connected occupancy grid, with its neighbour query and Manhattan heuristic;
  - A\* search over a binary heap, with the `cost_so_far` and `came_from` maps and the back-walk that rebuilds the path;
  - the four wheel primitives;
  - one period of the main loop, which pops reached cells and otherwise turns or drives towards the next cell.
- **Bug2 controller** (`bug_2_controller.py`):
  - the plane geometry: distance, the distance from a point to a line, the on-line test, bearings and compass headings;
  - the state machine `inicio` / `mover_a_meta` / `seguir_obstaculo` / `fin` as a step function. The step function maps a mode and one period's sensor frame to the next mode and the wheel command.
- **Maze generator** (`generate_wbt_obstacle_density.py`): `generate_maze`, with the random draws supplied as an input, and the density guard of `main`.

Files:

| file | module | contents |
|---|---|---|
| `wrappers.dfy` | `Wrappers` | `Option`, `Result` |
| `grid.dfy` | `Grid` | cells, adjacency, `get_neighbors`, `heuristic`, walks and paths |
| `planner.dfy` | `Planner` | `astar`: heap pop, relaxation, loop invariants, optimality, reconstruction |
| `drive.dfy` | `Drive` | `rotate_left`, `rotate_right`, `move_forward`, `stop` |
| `follower.dfy` | `PathFollower` | the per-period decision of the path follower |
| `geometry.dfy` | `Geometry` | the geometry helpers of the Bug2 controller |
| `bug2.dfy` | `Bug2` | the Bug2 state machine |
| `mazegen.dfy` | `MazeGen` | maze generation and the density guard |

How the model follows the code:

- **A\* proof.** The proof shows that the path `astar` returns is a walk of 4-adjacent cells from start to goal, every cell after the start free, and is no longer than any other such walk. Like the source, the model never checks that the start cell itself is free.
  - When no path exists, the source raises `KeyError` in the back-walk. The model returns `None` there, and only there.
  - Optimality rests on the admissibility of the heuristic. The source has no closed set and never skips stale heap entries. The model does the same: a popped cell is expanded again with its current best cost.
  - Termination follows from a potential: the sum of all costs, which every relaxation lowers, paired with the heap size.
- **Heap order.** Heap entries are `(priority, (row, col))` tuples, so ties in priority go to the smaller cell (`Planner.EntryLe`). Stale entries are never skipped when popped.
- **Popping a cell.** In the period in which the robot reaches the next cell, the first cell of the remaining path (the one being left) is popped, so the reached cell becomes its head, and no command is issued. Steering towards the new next cell starts in the following period (`PathFollower.FollowerStep`).
- **Grid coordinates.** Positions map to cells with `int()`, which truncates toward zero (`PathFollower.Trunc`).
- **Degenerate line.** The only reachable geometric failure is in `distancia_desde_recta`: it divides by zero when the line start equals the goal. The model returns it as `Bug2Error.DegenerateLine` from the `mover_a_meta` and `seguir_obstaculo` steps. The slope helper `obtener_recta` is never called.
- **Square roots.** Distances are compared on their squares rather than through `sqrt`. Two lemmas prove that this decides the same question as the source's formulas over the reals: `Geometry.WithinDistanceMeansLength` and `Geometry.OnLineMeansDistance`.
- **atan2 and the bearing.** `atan2` is a parameter of the Bug2 step: the caller supplies the angle it would return. The step also takes a `Bug2.BearingRule`. With `AsWritten` it computes `angulo_de` exactly as the source does. With `Intended` it uses the corrected bearing of the finding below.

## Model

| member | source | states |
|---|---|---|
| Grid.StepIsAdjacent | proyecto_webots/controllers/path_follower/path_follower.py:32 | each of the four actions moves to a 4-adjacent cell |
| Grid.Neighbors | proyecto_webots/controllers/path_follower/path_follower.py:35-44 | for a rectangular maze, a cell is listed exactly when it is 4-adjacent to the given cell, inside the grid and free, and at most four cells are listed |
| Grid.NeighborsInActionOrder | proyecto_webots/controllers/path_follower/path_follower.py:32-44 | neighbours come in the order of the action list, so none is repeated |
| Grid.Heuristic | proyecto_webots/controllers/path_follower/path_follower.py:47-48 | the heuristic is zero exactly at the goal |
| Grid.HeuristicConsistent | proyecto_webots/controllers/path_follower/path_follower.py:47-48 | one step changes the heuristic by exactly one (consistency) |
| Grid.HeuristicAdmissible | proyecto_webots/controllers/path_follower/path_follower.py:47-48 | the heuristic never exceeds the number of steps left on any walk to the goal |
| Planner.PopMin | proyecto_webots/controllers/path_follower/path_follower.py:60 | heappop returns an entry no larger, in (priority, row, column) order, than any other entry |
| Planner.Remove | proyecto_webots/controllers/path_follower/path_follower.py:60 | popping removes exactly that one entry from the heap's multiset |
| Planner.InitialInvariant | proyecto_webots/controllers/path_follower/path_follower.py:52-57 | the initial heap and maps satisfy the search invariant |
| Planner.PotentialDecreases | proyecto_webots/controllers/path_follower/path_follower.py:66-70 | lowering a cost never raises the potential, and strictly lowers it for a counted cell, so the loop ends |
| Planner.FrontierWitness | proyecto_webots/controllers/path_follower/path_follower.py:59-71 | for every path to the goal, either the goal is already discovered at a smaller cost or some heap entry has a smaller priority |
| Planner.GoalPoppedOptimal | proyecto_webots/controllers/path_follower/path_follower.py:60-63 | when the least entry is the goal, the goal's cost is below the length of every path to it |
| Planner.ExhaustedNoPath | proyecto_webots/controllers/path_follower/path_follower.py:59 | an empty heap before the goal is popped means the goal was never discovered and no path reaches it |
| Planner.Consider | proyecto_webots/controllers/path_follower/path_follower.py:66-71 | one relaxation: a new or cheaper neighbour gets cost plus one, parent current and a heap entry at cost plus heuristic, otherwise nothing changes; the search invariant is kept |
| Planner.Expand | proyecto_webots/controllers/path_follower/path_follower.py:65-71 | after the loop over the neighbours every neighbour costs at most the current cost plus one, the invariant holds, and the termination measure has not grown |
| Planner.Explore | proyecto_webots/controllers/path_follower/path_follower.py:51-71 | the search loop ends with the goal at an optimal cost, or with no path to the goal; came_from always forms a tree of walks from the start |
| Planner.Reconstruct | proyecto_webots/controllers/path_follower/path_follower.py:73-80 | the back-walk succeeds exactly for discovered cells (otherwise KeyError) and yields a path from the start no longer than the cell's cost plus one |
| Planner.AStar | proyecto_webots/controllers/path_follower/path_follower.py:51-82 | the result is a walk of adjacent cells from start to goal whose cells after the start are free, no longer than any other such walk, and is absent exactly when no such walk exists |
| Planner.PlanWallGap | proyecto_webots/controllers/path_follower/path_follower.py:51-82 | across a wall with one gap, the planned path has nine cells and passes through the gap |
| Drive.RotateLeft | proyecto_webots/controllers/path_follower/path_follower.py:126-133 | spinning left: no forward motion, turn rate equal to the speed |
| Drive.RotateRight | proyecto_webots/controllers/path_follower/path_follower.py:135-142 | spinning right: no forward motion, turn rate equal to minus the speed |
| Drive.Forward | proyecto_webots/controllers/path_follower/path_follower.py:144-151 | straight ahead at the speed, no turning |
| Drive.StopAtRest | proyecto_webots/controllers/path_follower/path_follower.py:153-158 | stop neither advances nor turns |
| Drive.MirrorPrimitives | proyecto_webots/controllers/path_follower/path_follower.py:126-158 | swapping the wheels turns each rotation into the other and leaves forward and stop unchanged |
| PathFollower.Trunc | proyecto_webots/controllers/path_follower/path_follower.py:210 | int() truncates toward zero: the result lies within one below a non-negative value and within one above a negative one |
| PathFollower.CellOf | proyecto_webots/controllers/path_follower/path_follower.py:210 | at non-negative coordinates, the cell is the unit square of the grid that contains four times the GPS position |
| PathFollower.WorldAngle | proyecto_webots/controllers/path_follower/path_follower.py:113-119 | every atan2 result gives a world angle in [0, 360); an atan2 of -1.5708 reads 270 and one of π - 1.5708 reads 90 |
| PathFollower.TargetHeading | proyecto_webots/controllers/path_follower/path_follower.py:229-297 | a column change takes priority over a row change; there is no heading exactly when the next cell is the current one |
| PathFollower.HeadingOfMove | proyecto_webots/controllers/path_follower/path_follower.py:229-297 | each of the four actions gets its own heading: 90, 270, 0 or 180 |
| PathFollower.Steer | proyecto_webots/controllers/path_follower/path_follower.py:231-244 | full speed ahead exactly when within one degree; otherwise spin in place toward the target, slowly (speed 1) exactly within 20 degrees and at full speed (6.28) beyond; speeds stay within the maximum |
| PathFollower.SteerMirror | proyecto_webots/controllers/path_follower/path_follower.py:231-244 | errors of the same size on either side of the target give mirror-image commands |
| PathFollower.SteerDoesNotWrap | proyecto_webots/controllers/path_follower/path_follower.py:282-297 | headings are compared without wrapping: at 359.5 degrees toward 0 the robot spins right at full speed |
| PathFollower.FollowerStep | proyecto_webots/controllers/path_follower/path_follower.py:221-302 | the loop ends with a stop exactly when at most one cell is left; otherwise the first cell is dropped, with no command, exactly when the robot is inside the arrival box of the second; outside the box there is no command exactly when the robot already stands in the second cell, and otherwise the command is the turn-or-drive decision towards that cell's heading; every command stays within the maximum speed |
| PathFollower.Run | proyecto_webots/controllers/path_follower/path_follower.py:204-302 | over any sequence of periods the remaining path stays a suffix of the plan, and the loop breaks only with at most one cell left, stopping the robot |
| PathFollower.CentredRunDrains | proyecto_webots/controllers/path_follower/path_follower.py:204-302 | a robot at the centre of each next cell in turn drains the path to its last cell and then stops |
| Geometry.WithinDistanceMeansLength | proyecto_webots/controllers/bug_2_controller/bug_2_controller.py:28-29 | the squared-distance test agrees with comparing the Euclidean distance |
| Geometry.OnLine | proyecto_webots/controllers/bug_2_controller/bug_2_controller.py:34-55 | there is no answer exactly when the two line points coincide (division by zero); a point is never on the line under a negative tolerance |
| Geometry.OnLineMeansDistance | proyecto_webots/controllers/bug_2_controller/bug_2_controller.py:34-55 | the test equals the source's comparison of the perpendicular distance with the tolerance |
| Geometry.EndsOnLine | proyecto_webots/controllers/bug_2_controller/bug_2_controller.py:34-55 | both points that define the line lie on it |
| Geometry.OnLineMonotone | proyecto_webots/controllers/bug_2_controller/bug_2_controller.py:50-55 | a point on the line under one tolerance is on it under every larger one |
| Geometry.Mod360 | proyecto_webots/controllers/bug_2_controller/bug_2_controller.py:32 | Python's float modulo 360: the result is in [0, 360) and differs from the input by whole turns |
| Geometry.Bearing | proyecto_webots/controllers/bug_2_controller/bug_2_controller.py:31-32 | the intended bearing lies in the compass range [0, 360), and is 0 exactly for a target straight towards negative y |
| Geometry.BearingAsWritten | proyecto_webots/controllers/bug_2_controller/bug_2_controller.py:31-32 | `angulo_de` as written: a non-negative atan2 result is converted to degrees and shifted by 90, while a negative one first gains 360 radians |
| Geometry.BearingAsWrittenDiverges | proyecto_webots/controllers/bug_2_controller/bug_2_controller.py:31-32 | the bearing as written matches the intended one for non-negative atan2 results, but exceeds 20000 degrees for every negative one |
| Bug2.Cruise | proyecto_webots/controllers/bug_2_controller/bug_2_controller.py:111-113 | the default command of each period: half speed straight ahead |
| Bug2.CompassHeading | proyecto_webots/controllers/bug_2_controller/bug_2_controller.py:57-64 | every atan2 result gives a compass heading in [0, 360); an atan2 of 1.5708 reads 180 and one of 1.5708 - 3.14 reads 0 |
| Bug2.StartStep | proyecto_webots/controllers/bug_2_controller/bug_2_controller.py:116-127 | spin left at half speed until aligned within 2% with the goal bearing, then head for the goal along a line starting at the current position |
| Bug2.Correct | proyecto_webots/controllers/bug_2_controller/bug_2_controller.py:142-149 | (0.5, 0.1)·max, a right turn, when the heading error exceeds the tolerance; (0.1, 0.5)·max, a left turn, when it is below minus the tolerance; half speed straight otherwise |
| Bug2.CorrectMirror | proyecto_webots/controllers/bug_2_controller/bug_2_controller.py:142-149 | opposite heading errors give mirror-image corrections |
| Bug2.MoveStep | proyecto_webots/controllers/bug_2_controller/bug_2_controller.py:129-153 | an obstacle on ps0 and ps7 takes priority and records the hit point; otherwise arrival finishes; the step fails exactly on a degenerate line; otherwise the line is kept, with half speed ahead on the line (tolerance 0.02) and the heading correction off it |
| Bug2.WallFollow | proyecto_webots/controllers/bug_2_controller/bug_2_controller.py:168-183 | the four commands: an open right side (ps2) spins left at half speed; otherwise (0.2, 0.5)·max when max(ps0, ps1) > 200, (0.5, 0.2)·max when max(ps0, ps1) and max(ps5, ps6) are both below 100, half speed straight ahead otherwise |
| Bug2.WallFollowTurn | proyecto_webots/controllers/bug_2_controller/bug_2_controller.py:168-183 | the follower turns left exactly when the right side is open or very close, right exactly when the right side is covered and both front quarters are clear, and advances exactly while the right side is covered |
| Bug2.FollowStep | proyecto_webots/controllers/bug_2_controller/bug_2_controller.py:155-183 | re-acquiring the line away from the hit point starts a new line here with no command for the period; otherwise the hit point is kept and the robot follows the wall; fails exactly on a degenerate line |
| Bug2.FinishStep | proyecto_webots/controllers/bug_2_controller/bug_2_controller.py:185-189 | the final state stops both wheels and breaks the loop |
| Bug2.Step | proyecto_webots/controllers/bug_2_controller/bug_2_controller.py:102-192 | the loop breaks exactly in the final state, and every command stays within half the maximum speed |
| Bug2.StepIsValidTransition | proyecto_webots/controllers/bug_2_controller/bug_2_controller.py:116-189 | every step follows one of the allowed transitions, with lines and hit points recorded at the current position |
| Bug2.StepFailsOnlyOnDegenerateLine | proyecto_webots/controllers/bug_2_controller/bug_2_controller.py:137-158 | a step fails only when the line start is the goal |
| Bug2.FinishedAbsorbing | proyecto_webots/controllers/bug_2_controller/bug_2_controller.py:185-189 | the final state is absorbing |
| Bug2.ReentryGuard | proyecto_webots/controllers/bug_2_controller/bug_2_controller.py:157-166 | within 1.5 arrival tolerances of the hit point the robot keeps following the obstacle |
| Bug2.NoReacquireAtHitPoint | proyecto_webots/controllers/bug_2_controller/bug_2_controller.py:159-160 | the line is never re-acquired at the hit point itself |
| Bug2.ObstacleEncounter | proyecto_webots/controllers/bug_2_controller/bug_2_controller.py:129-134 | heading for the goal keeps the line, and an obstacle in the next period records that period's position as the hit point |
| Bug2.AsWrittenStartSpins | proyecto_webots/controllers/bug_2_controller/bug_2_controller.py:116-125 | as written, towards a goal at negative relative y the start step spins left and stays in `inicio` for every compass heading in [0, 360) |
| Bug2.AsWrittenSpinsAtEveryCompassReading | proyecto_webots/controllers/bug_2_controller/bug_2_controller.py:116-125 | with the heading taken from the compass as `obtener_rumbo_en_grados` computes it, the as-written start step spins left in `inicio` for every compass direction when the goal lies at negative relative y |
| Bug2.AsWrittenStepSpins | proyecto_webots/controllers/bug_2_controller/bug_2_controller.py:116-125 | as written, a whole control period in `inicio` towards a goal at negative relative y spins left and stays in `inicio` |
| Bug2.AsWrittenStepBearsLeft | proyecto_webots/controllers/bug_2_controller/bug_2_controller.py:137-153 | as written, a control period in `mover_a_meta` off a line that starts above the goal always corrects with the left-bearing command (0.1, 0.5)·max, whatever the compass heading |
| Bug2.RulesAgreeAboveAxis | proyecto_webots/controllers/bug_2_controller/bug_2_controller.py:116-127 | towards a goal at non-negative relative y the as-written and intended start steps coincide |
| Bug2.IntendedStartCanAlign | proyecto_webots/controllers/bug_2_controller/bug_2_controller.py:116-127 | with the intended bearing, every goal direction except straight towards negative y has a compass heading in [0, 360) at which the start step sets off along the line |
| MazeGen.CellFor | generadar_mapas/generate_wbt_obstacle_density.py:29-32 | an interior cell is 0 or 1, and 1 exactly when its draw is below the density |
| MazeGen.Ones | generadar_mapas/generate_wbt_obstacle_density.py:25 | a border row holds only ones, and none when its length is not positive |
| MazeGen.InteriorRow | generadar_mapas/generate_wbt_obstacle_density.py:27-34 | an interior row is framed by ones, with one cell per draw in between |
| MazeGen.GenerateMaze | generadar_mapas/generate_wbt_obstacle_density.py:21-36 | a top and a bottom row of ones around one framed row per interior row, each cell set from its draw |
| MazeGen.GeneratedIsFramedRectangle | generadar_mapas/generate_wbt_obstacle_density.py:21-36 | the maze is a rectangle of len(name)·k by len(surname)·k (the printed dimensions), all 0 or 1, with an all-obstacle border |
| MazeGen.DensityZeroIsOpen | generadar_mapas/generate_wbt_obstacle_density.py:29-32 | with density 0 every interior cell is free |
| MazeGen.DensityOneIsSolid | generadar_mapas/generate_wbt_obstacle_density.py:29-32 | with density 1 every cell is an obstacle |
| MazeGen.BuildMaze | generadar_mapas/generate_wbt_obstacle_density.py:143-146 | the result is an error exactly when the density lies outside [0, 1]; otherwise it is the generated maze |

## Left out

- Simulator I/O is not modelled. That covers Webots devices, `robot.step`, motor `setPosition`/`setVelocity` calls, and the GPS and compass reads. A step receives the pose and the sensor readings as inputs and returns the wheel command.
- A period that issues no command is not modelled further. In the source the motors keep their previous speeds; the model returns `None`.
- File and console I/O are not modelled: `load_map`, `save_maze_to_csv`, `generar_mapa_webots` (the world file), `print_maze_with_path*`, the `print` calls, and `argparse`. They do not affect navigation decisions.
- `random.random()` is not modelled as a generator. Its draws are an input, one sequence per interior row, in the order the source consumes them.
- `math.atan2` is a parameter of the Bug2 step, and compass vectors enter as the angle `atan2` returns. `math.sqrt` is avoided by comparing squares.
- Floating-point rounding is not modelled: all arithmetic is exact over the reals.
- `obtener_recta` (never called, and its slope formula is wrong) is not modelled. Neither is `distancia_desde_poligono` (never called).
- `get_all_values`, `path_completed`, `Kp` and `angulo_impacto` are assigned but never used in a decision, so they are not modelled.
- Planner.AStar: states that the result is a shortest path, but not which of several shortest paths the heap's (priority, row, column) order returns.
- Planner.AStar: does not promise that the start cell is free. The source never checks it, and the maze generator can put an obstacle at (1, 1), so a returned path may begin on a blocked cell.
- Grid.Neighbors: requires a non-empty rectangular maze. The source reads the column count from the first row, and the grid file is rectangular by construction; a row shorter than the first raises `IndexError` in the source only when one of its missing columns is read, and rows longer than the first are read without error. `WellFormed` excludes all such ragged mazes, including those the source accepts.
- Bug2.Step: requires eight proximity readings, the number of sensors the controller reads.
- Bug2.Step: its own contract states only halting and speed bounds. The per-mode behaviour is stated by Bug2.StartStep, Bug2.MoveStep, Bug2.FollowStep and Bug2.FinishStep. That Step passes the bearing rule on is shown by Bug2.AsWrittenStepSpins and Bug2.AsWrittenStepBearsLeft.
- Bug2.StartStep: its contract holds under either bearing rule. The source's own behaviour is the `AsWritten` rule, under which a goal at negative relative y is never aligned with (Bug2.AsWrittenStartSpins).
- Bug2.MoveStep: the heading correction off the line uses the bearing of the chosen rule. Under `AsWritten`, a line start above the goal gives a bearing beyond 20000 degrees, so the correction always bears left.
- Bug2.IntendedStartCanAlign: excludes a goal straight towards negative y. The intended bearing is then 0, and the source's relative 2% test is passed by no heading.
- MazeGen.GenerateMaze: requires enough draws for every interior cell, since `random()` never runs out.
- Geometry.OnLine: decides the source's float test over the reals, through squares. It does not model `NaN` or rounding near the tolerance.

## Findings

| source | as written | input that shows it | evidently intended | confidence | as-written member | corrected member |
|---|---|---|---|---|---|---|
| proyecto_webots/controllers/bug_2_controller/bug_2_controller.py:31-32 | `angulo_de` applies `% 360` to the atan2 result in radians and only then converts to degrees. So a negative angle gains 360 radians, and its bearing exceeds 20000 degrees. | The robot is at a larger y than the goal (y > 5.6), so atan2 < 0. For example, -0.1 gives a bearing of about 20711. No compass heading in [0, 360) is within 2% of that, so `inicio` spins forever. | Convert to degrees, shift by 90, then reduce modulo 360. The bearing then lies in the compass range [0, 360). For every goal direction except exactly towards negative y (bearing 0), some compass heading passes the start test. | high that the reduction in radians is wrong; medium on the exact intended formula (not executed) | Geometry.BearingAsWritten, shown by Bug2.AsWrittenStartSpins and Bug2.AsWrittenStepSpins | Geometry.Bearing, with Bug2.IntendedStartCanAlign |

=== FILE: bug2.dfy ===
/** The Bug2 controller: from a start state it turns towards the goal, drives along the
    start-goal line, follows the boundary of any obstacle it meets until it finds the line
    again away from the hit point, and stops within reach of the goal. One call of Step is one
    control period: the mode carries what the source keeps in loop variables (the line's start
    point and the hit point), and the frame carries the period's sensor readings. */
module Bug2 {
  import opened Wrappers
  import opened Geometry
  import opened Drive

  /** The goal position (POSICION_META, x and y). */
  const Goal: Point := Point(11.6, 5.6)
  /** Arrival distance (EPSILON_POS); also the line tolerance while following an obstacle. */
  const EpsilonPos: real := 0.07
  /** Proximity reading above which a sensor sees an obstacle (PROX_OBST). */
  const ProxObst: real := 100.0
  /** Heading error tolerated before steering back to the line (EPSILON_ANGULO). */
  const EpsilonAngle: real := 0.05
  /** Default tolerance of en_recta. */
  const LineTolerance: real := 0.02

  /** The four values of the source's estado; the data it keeps alongside travels with them. */
  datatype Mode =
    | Start
    | MoveToGoal(lineStart: Point)
    | FollowObstacle(lineStart: Point, hitPoint: Point)
    | Finished

  /** One period's readings: the eight proximity sensors ps0..ps7, the GPS position and the
      compass heading in degrees (CompassHeading of the compass vector's atan2, so in [0, 360)). */
  datatype Frame = Frame(ps: seq<real>, pos: Point, heading: real)

  /** The next mode, the wheel command of the period (None when the source issues none and
      the motors keep their previous speeds), and whether the control loop breaks. */
  datatype Output = Output(mode: Mode, command: Option<Command>, halt: bool)

  /** en_recta with the line's start at the goal divides by zero. */
  datatype Bug2Error = DegenerateLine

  /** The speeds the source starts every period with: half speed ahead. */
  function Cruise(): (c: Command)
    ensures Advance(c) == 0.5 * MaxSpeed && Turn(c) == 0.0
  {
    Forward(0.5 * MaxSpeed)
  }

  /** The robot points at the goal: the bearing lies strictly within 2% of the heading. */
  predicate Aligned(bearing: real, heading: real) {
    bearing > 0.98 * heading && bearing < 1.02 * heading
  }

  /** Which reading of angulo_de the controller runs with: the source's as written, or the
      intended one (see Geometry.BearingAsWritten and Geometry.Bearing). */
  datatype BearingRule = AsWritten | Intended

  function BearingOf(rule: BearingRule, rad: real): real {
    match rule
    case AsWritten => BearingAsWritten(rad)
    case Intended => Bearing(rad)
  }

  /** angulo_de(p, goal), from the atan2 the caller supplies. */
  function BearingToGoal(p: Point, atan2: (real, real) -> real, rule: BearingRule): real {
    BearingOf(rule, atan2(Goal.y - p.y, Goal.x - p.x))
  }

  /** obtener_rumbo_en_grados: the compass heading in degrees from the atan2 of the compass
      vector; every atan2 result gives a heading in [0, 360). */
  function CompassHeading(rad: real): (h: real)
    ensures -Pi <= rad <= Pi ==> 0.0 <= h < 360.0
    ensures rad == 1.5708 ==> h == 180.0
    ensures rad == 1.5708 - 3.14 ==> h == 0.0
  {
    var h := (rad - 1.5708) / 3.14 * 180.0 + 180.0;
    if h < 0.0 then h + 360.0 else h
  }

  // ----- the four modes -----

  /** 'inicio': spin left at half speed until aligned with the goal, then head for it along the
      line that starts here. */
  function StartStep(f: Frame, atan2: (real, real) -> real, rule: BearingRule): (o: Output)
    ensures !o.halt && o.command.Some? && WithinSpeed(o.command.value, 0.5 * MaxSpeed)
    ensures Aligned(BearingToGoal(f.pos, atan2, rule), f.heading)
      ==> o.mode == MoveToGoal(f.pos) && o.command == Some(Cruise())
    ensures !Aligned(BearingToGoal(f.pos, atan2, rule), f.heading)
      ==> o.mode == Start && o.command == Some(RotateLeft(0.5 * MaxSpeed))
  {
    if !Aligned(BearingToGoal(f.pos, atan2, rule), f.heading) then
      Output(Start, Some(RotateLeft(0.5 * MaxSpeed)), false)
    else
      Output(MoveToGoal(f.pos), Some(Cruise()), false)
  }

  /** Steering back towards the line: bear right when the heading exceeds the line's bearing,
      left when it falls short, straight on within the tolerance. */
  function Correct(err: real): (c: Command)
    ensures err > EpsilonAngle ==> c == Command(0.5 * MaxSpeed, 0.1 * MaxSpeed) && Turn(c) < 0.0
    ensures err < -EpsilonAngle ==> c == Command(0.1 * MaxSpeed, 0.5 * MaxSpeed) && Turn(c) > 0.0
    ensures -EpsilonAngle <= err <= EpsilonAngle ==> c == Cruise()
    ensures WithinSpeed(c, 0.5 * MaxSpeed)
  {
    if err > EpsilonAngle then Command(0.5 * MaxSpeed, 0.1 * MaxSpeed)
    else if err < -EpsilonAngle then Command(0.1 * MaxSpeed, 0.5 * MaxSpeed)
    else Cruise()
  }

  /** Opposite heading errors give mirror-image corrections. */
  lemma CorrectMirror(err: real)
    ensures Correct(-err) == Mirror(Correct(err))
  {
  }

  /** 'mover_a_meta': an obstacle ahead (ps0 and ps7) wins over everything and is recorded as
      the hit point; else arrival ends the run; else, off the line, the heading is corrected
      towards the line's bearing. */
  function MoveStep(lineStart: Point, f: Frame, atan2: (real, real) -> real, rule: BearingRule): (r: Result<Output, Bug2Error>)
    requires |f.ps| == 8
    ensures r.Failure? <==>
      !(f.ps[0] > ProxObst && f.ps[7] > ProxObst) && !WithinDistance(f.pos, Goal, EpsilonPos) && lineStart == Goal
    ensures r.Success? ==> !r.value.halt && r.value.command.Some?
    ensures r.Success? ==> WithinSpeed(r.value.command.value, 0.5 * MaxSpeed)
    ensures f.ps[0] > ProxObst && f.ps[7] > ProxObst ==> r == Success(Output(FollowObstacle(lineStart, f.pos), Some(Cruise()), false))
    ensures r.Success? && r.value.mode.Finished? <==>
      !(f.ps[0] > ProxObst && f.ps[7] > ProxObst) && WithinDistance(f.pos, Goal, EpsilonPos)
    ensures r.Success? && r.value.mode.MoveToGoal? ==> r.value.mode.lineStart == lineStart
    ensures !(f.ps[0] > ProxObst && f.ps[7] > ProxObst) && WithinDistance(f.pos, Goal, EpsilonPos) ==>
      r == Success(Output(Finished, Some(Cruise()), false))
    ensures !(f.ps[0] > ProxObst && f.ps[7] > ProxObst) && !WithinDistance(f.pos, Goal, EpsilonPos) && lineStart != Goal ==>
      r == Success(Output(MoveToGoal(lineStart),
                          Some(if OnLine(f.pos, lineStart, Goal, LineTolerance) == Some(true) then Cruise()
                               else Correct(f.heading - BearingToGoal(lineStart, atan2, rule))),
                          false))
  {
    if f.ps[0] > ProxObst && f.ps[7] > ProxObst then
      Success(Output(FollowObstacle(lineStart, f.pos), Some(Cruise()), false))
    else if WithinDistance(f.pos, Goal, EpsilonPos) then
      Success(Output(Finished, Some(Cruise()), false))
    else
      match OnLine(f.pos, lineStart, Goal, LineTolerance)
      case None => Failure(DegenerateLine)
      case Some(on) =>
        var c := if on then Cruise() else Correct(f.heading - BearingToGoal(lineStart, atan2, rule));
        Success(Output(MoveToGoal(lineStart), Some(c), false))
  }

  /** Boundary following while the right side (ps2) is covered: veer left when very close
      on the right (ps0, ps1), right when both sides are clear, straight on otherwise; turn
      left on the spot when the right side is open. */
  function WallFollow(ps: seq<real>): (c: Command)
    requires |ps| == 8
    ensures !(ps[2] > ProxObst) ==> c == RotateLeft(0.5 * MaxSpeed)
    ensures ps[2] > ProxObst && Max(ps[0], ps[1]) > 2.0 * ProxObst ==> c == Command(0.2 * MaxSpeed, 0.5 * MaxSpeed)
    ensures (ps[2] > ProxObst && !(Max(ps[0], ps[1]) > 2.0 * ProxObst)
             && Max(ps[0], ps[1]) < ProxObst && Max(ps[5], ps[6]) < ProxObst)
      ==> c == Command(0.5 * MaxSpeed, 0.2 * MaxSpeed)
    ensures (ps[2] > ProxObst && !(Max(ps[0], ps[1]) > 2.0 * ProxObst)
             && !(Max(ps[0], ps[1]) < ProxObst && Max(ps[5], ps[6]) < ProxObst))
      ==> c == Cruise()
    ensures WithinSpeed(c, 0.5 * MaxSpeed)
  {
    if !(ps[2] > ProxObst) then RotateLeft(0.5 * MaxSpeed)
    else
      var right := Max(ps[0], ps[1]);
      var left := Max(ps[5], ps[6]);
      if right > 2.0 * ProxObst then Command(0.2 * MaxSpeed, 0.5 * MaxSpeed)
      else if right < ProxObst && left < ProxObst then Command(0.5 * MaxSpeed, 0.2 * MaxSpeed)
      else Cruise()
  }

  /** Python's max over two readings. */
  function Max(a: real, b: real): (m: real)
    ensures m >= a && m >= b && (m == a || m == b)
  {
    if a >= b then a else b
  }

  /** The turning sense of the boundary follower, with the obstacle on the right: it turns
      left exactly when the right side is open or the obstacle is very close on the right,
      right exactly when the right side is covered but both front quarters are clear, and
      drives on only while the right side is covered. */
  lemma WallFollowTurn(ps: seq<real>)
    requires |ps| == 8
    ensures Turn(WallFollow(ps)) > 0.0 <==> !(ps[2] > ProxObst) || ps[0] > 2.0 * ProxObst || ps[1] > 2.0 * ProxObst
    ensures Turn(WallFollow(ps)) < 0.0 <==>
      ps[2] > ProxObst && ps[0] < ProxObst && ps[1] < ProxObst && ps[5] < ProxObst && ps[6] < ProxObst
    ensures Advance(WallFollow(ps)) > 0.0 <==> ps[2] > ProxObst
  {
    var right := Max(ps[0], ps[1]);
    var left := Max(ps[5], ps[6]);
    if ps[2] > ProxObst {
      if right > 2.0 * ProxObst {
        assert WallFollow(ps) == Command(0.2 * MaxSpeed, 0.5 * MaxSpeed);
      } else if right < ProxObst && left < ProxObst {
        assert WallFollow(ps) == Command(0.5 * MaxSpeed, 0.2 * MaxSpeed);
      } else {
        assert WallFollow(ps) == Cruise();
      }
    } else {
      assert WallFollow(ps) == RotateLeft(0.5 * MaxSpeed);
    }
  }

  /** The robot has found the line again (within EpsilonPos) away from the hit point. */
  predicate Reacquired(lineStart: Point, hitPoint: Point, pos: Point) {
    OnLine(pos, lineStart, Goal, EpsilonPos) == Some(true)
      && !WithinDistance(pos, hitPoint, 1.5 * EpsilonPos)
  }

  /** 'seguir_obstaculo': leave the obstacle for a new line from here once the line is found
      again away from the hit point (that period sends no command); otherwise keep following
      the boundary. */
  function FollowStep(lineStart: Point, hitPoint: Point, f: Frame): (r: Result<Output, Bug2Error>)
    requires |f.ps| == 8
    ensures r.Failure? <==> lineStart == Goal
    ensures r.Success? ==> !r.value.halt
    ensures r.Success? && r.value.command.Some? ==> WithinSpeed(r.value.command.value, 0.5 * MaxSpeed)
    ensures r.Success? && Reacquired(lineStart, hitPoint, f.pos) ==> r.value == Output(MoveToGoal(f.pos), None, false)
    ensures r.Success? && !Reacquired(lineStart, hitPoint, f.pos) ==>
      r.value.mode == FollowObstacle(lineStart, hitPoint) && r.value.command == Some(WallFollow(f.ps))
  {
    match OnLine(f.pos, lineStart, Goal, EpsilonPos)
    case None => Failure(DegenerateLine)
    case Some(on) =>
      if on && !WithinDistance(f.pos, hitPoint, 1.5 * EpsilonPos) then
        Success(Output(MoveToGoal(f.pos), None, false))
      else
        Success(Output(FollowObstacle(lineStart, hitPoint), Some(WallFollow(f.ps)), false))
  }

  /** One control period of the Bug2 loop. */
  function Step(mode: Mode, f: Frame, atan2: (real, real) -> real, rule: BearingRule): (r: Result<Output, Bug2Error>)
    requires |f.ps| == 8
    ensures r.Success? ==> (r.value.halt <==> mode.Finished?)
    ensures r.Success? && r.value.command.Some? ==> WithinSpeed(r.value.command.value, 0.5 * MaxSpeed)
  {
    match mode
    case Start => Success(StartStep(f, atan2, rule))
    case MoveToGoal(lineStart) => MoveStep(lineStart, f, atan2, rule)
    case FollowObstacle(lineStart, hitPoint) => FollowStep(lineStart, hitPoint, f)
    case Finished => Success(FinishStep())
  }

  /** 'fin': stop both wheels and break the control loop. */
  function FinishStep(): (o: Output)
    ensures o.halt && o.mode == Finished && o.command == Some(Stop())
  {
    Output(Finished, Some(Stop()), true)
  }

  // ----- properties of the state machine -----

  /** The transitions the controller can make: it only leaves Start for a line from where it
      stands, keeps its line while heading for the goal, records a hit point on the line it
      was following, starts a new line where it leaves an obstacle, and never leaves Finished. */
  predicate ValidTransition(mode: Mode, next: Mode, pos: Point) {
    match mode
    case Start => next == Start || next == MoveToGoal(pos)
    case MoveToGoal(ls) =>
      next == MoveToGoal(ls) || next == FollowObstacle(ls, pos) || next == Finished
    case FollowObstacle(ls, hit) => next == FollowObstacle(ls, hit) || next == MoveToGoal(pos)
    case Finished => next == Finished
  }

  lemma StepIsValidTransition(mode: Mode, f: Frame, atan2: (real, real) -> real, rule: BearingRule)
    requires |f.ps| == 8
    ensures Step(mode, f, atan2, rule).Success? ==> ValidTransition(mode, Step(mode, f, atan2, rule).value.mode, f.pos)
  {
  }

  /** Only a line from the goal to itself makes a step fail; from every other line start the
      controller always has an answer. */
  lemma StepFailsOnlyOnDegenerateLine(mode: Mode, f: Frame, atan2: (real, real) -> real, rule: BearingRule)
    requires |f.ps| == 8
    ensures Step(mode, f, atan2, rule).Failure? ==>
      (mode.MoveToGoal? || mode.FollowObstacle?) && mode.lineStart == Goal
  {
  }

  /** Finished is absorbing: every later period stops both wheels and breaks the loop. */
  lemma FinishedAbsorbing(f: Frame, atan2: (real, real) -> real, rule: BearingRule)
    requires |f.ps| == 8
    ensures Step(Finished, f, atan2, rule) == Success(Output(Finished, Some(Stop()), true))
  {
  }

  /** The re-entry guard: within 1.5 arrival tolerances of the hit point the controller keeps
      following the obstacle, even on the line. */
  lemma ReentryGuard(lineStart: Point, hitPoint: Point, f: Frame, atan2: (real, real) -> real, rule: BearingRule)
    requires |f.ps| == 8 && lineStart != Goal
    requires WithinDistance(f.pos, hitPoint, 1.5 * EpsilonPos)
    ensures Step(FollowObstacle(lineStart, hitPoint), f, atan2, rule)
      == Success(Output(FollowObstacle(lineStart, hitPoint), Some(WallFollow(f.ps)), false))
  {
  }

  /** A line through the hit point cannot be reacquired at the hit point itself. */
  lemma NoReacquireAtHitPoint(lineStart: Point, hitPoint: Point)
    ensures !Reacquired(lineStart, hitPoint, hitPoint)
  {
    assert Dist2(hitPoint, hitPoint) == 0.0;
  }

  /** Heading for the goal on the line with nothing ahead keeps the line; an obstacle in the
      next period is recorded once, at the pose of that period. */
  lemma ObstacleEncounter(lineStart: Point, f1: Frame, f2: Frame, atan2: (real, real) -> real, rule: BearingRule)
    requires |f1.ps| == 8 && |f2.ps| == 8 && lineStart != Goal
    requires !(f1.ps[0] > ProxObst && f1.ps[7] > ProxObst) && !WithinDistance(f1.pos, Goal, EpsilonPos)
    requires f2.ps[0] > ProxObst && f2.ps[7] > ProxObst
    ensures Step(MoveToGoal(lineStart), f1, atan2, rule).Success?
    ensures var m1 := Step(MoveToGoal(lineStart), f1, atan2, rule).value.mode;
      m1 == MoveToGoal(lineStart)
      && Step(m1, f2, atan2, rule) == Success(Output(FollowObstacle(lineStart, f2.pos), Some(Cruise()), false))
  {
  }

  /** As written, the start test can never pass towards a goal at negative relative y: the
      bearing is reduced in radians, no compass heading in [0, 360) is within 2% of it, and the
      robot spins on the spot in every period. */
  lemma AsWrittenStartSpins(f: Frame, atan2: (real, real) -> real)
    requires -Pi < atan2(Goal.y - f.pos.y, Goal.x - f.pos.x) < 0.0 && 0.0 <= f.heading < 360.0
    ensures StartStep(f, atan2, AsWritten) == Output(Start, Some(RotateLeft(0.5 * MaxSpeed)), false)
  {
    BearingAsWrittenDiverges(atan2(Goal.y - f.pos.y, Goal.x - f.pos.x));
  }

  /** The same, with the heading read from the compass as obtener_rumbo_en_grados does: at
      every compass direction the as-written start step spins. */
  lemma AsWrittenSpinsAtEveryCompassReading(f: Frame, atan2: (real, real) -> real, compass: real)
    requires -Pi < atan2(Goal.y - f.pos.y, Goal.x - f.pos.x) < 0.0 && -Pi <= compass <= Pi
    ensures StartStep(f.(heading := CompassHeading(compass)), atan2, AsWritten)
      == Output(Start, Some(RotateLeft(0.5 * MaxSpeed)), false)
  {
    AsWrittenStartSpins(f.(heading := CompassHeading(compass)), atan2);
  }

  /** The controller's period in 'inicio' passes its bearing rule on: as written, towards a
      goal at negative relative y, the whole period spins left and stays in 'inicio'. */
  lemma AsWrittenStepSpins(f: Frame, atan2: (real, real) -> real)
    requires |f.ps| == 8
    requires -Pi < atan2(Goal.y - f.pos.y, Goal.x - f.pos.x) < 0.0 && 0.0 <= f.heading < 360.0
    ensures Step(Start, f, atan2, AsWritten) == Success(Output(Start, Some(RotateLeft(0.5 * MaxSpeed)), false))
  {
    AsWrittenStartSpins(f, atan2);
  }

  /** The controller's period in 'mover_a_meta' passes its bearing rule on: as written, off a
      line that starts above the goal, with nothing ahead and the goal not reached, the
      correction always bears left, whatever the compass heading. */
  lemma AsWrittenStepBearsLeft(lineStart: Point, f: Frame, atan2: (real, real) -> real)
    requires |f.ps| == 8 && lineStart != Goal
    requires !(f.ps[0] > ProxObst && f.ps[7] > ProxObst) && !WithinDistance(f.pos, Goal, EpsilonPos)
    requires OnLine(f.pos, lineStart, Goal, LineTolerance) == Some(false)
    requires -Pi < atan2(Goal.y - lineStart.y, Goal.x - lineStart.x) < 0.0 && 0.0 <= f.heading < 360.0
    ensures Step(MoveToGoal(lineStart), f, atan2, AsWritten)
      == Success(Output(MoveToGoal(lineStart), Some(Command(0.1 * MaxSpeed, 0.5 * MaxSpeed)), false))
  {
    BearingAsWrittenDiverges(atan2(Goal.y - lineStart.y, Goal.x - lineStart.x));
  }

  /** Towards a goal at non-negative relative y the two readings of angulo_de give the same
      start step. */
  lemma RulesAgreeAboveAxis(f: Frame, atan2: (real, real) -> real)
    requires 0.0 <= atan2(Goal.y - f.pos.y, Goal.x - f.pos.x) <= Pi
    ensures StartStep(f, atan2, AsWritten) == StartStep(f, atan2, Intended)
  {
    BearingAsWrittenDiverges(atan2(Goal.y - f.pos.y, Goal.x - f.pos.x));
  }

  /** With the intended bearing, every direction of the goal except straight towards
      negative y (a bearing of 0, which no heading is within 2% of) has a compass heading in
      [0, 360) at which the start test passes and the robot sets off along the line. */
  lemma IntendedStartCanAlign(f: Frame, atan2: (real, real) -> real)
    requires -Pi < atan2(Goal.y - f.pos.y, Goal.x - f.pos.x) <= Pi
    requires atan2(Goal.y - f.pos.y, Goal.x - f.pos.x) != -Pi / 2.0
    ensures exists h :: 0.0 <= h < 360.0 && StartStep(f.(heading := h), atan2, Intended).mode == MoveToGoal(f.pos)
  {
    var b := BearingToGoal(f.pos, atan2, Intended);
    assert StartStep(f.(heading := b), atan2, Intended).mode == MoveToGoal(f.pos);
  }
}

=== FILE: drive.dfy ===
/** The differential-drive primitives of the path follower: each sets the two wheel motors to
    velocity control and commands a left and a right wheel speed (rad/s). */
module Drive {
  /** The wheel speeds sent to the motors in one control period. */
  datatype Command = Command(left: real, right: real)

  /** The e-puck's top wheel speed, shared by both controllers. */
  const MaxSpeed: real := 6.28

  /** Forward component of a command: the mean wheel speed. */
  function Advance(c: Command): real {
    (c.left + c.right) / 2.0
  }

  /** Turning component of a command: positive when the right wheel outruns the left, that is
      when the robot turns to its left. */
  function Turn(c: Command): real {
    (c.right - c.left) / 2.0
  }

  /** The same command with the wheels swapped: the mirror image of the motion. */
  function Mirror(c: Command): (r: Command)
    ensures Advance(r) == Advance(c) && Turn(r) == -Turn(c)
  {
    Command(c.right, c.left)
  }

  /** rotate_left(speed): spin in place to the left at the given wheel speed. */
  function RotateLeft(speed: real): (c: Command)
    ensures Advance(c) == 0.0 && Turn(c) == speed
  {
    Command(-speed, speed)
  }

  /** rotate_right(speed): spin in place to the right at the given wheel speed. */
  function RotateRight(speed: real): (c: Command)
    ensures Advance(c) == 0.0 && Turn(c) == -speed
  {
    Command(speed, -speed)
  }

  /** move_forward(speed): both wheels at the given speed. */
  function Forward(speed: real): (c: Command)
    ensures Advance(c) == speed && Turn(c) == 0.0
  {
    Command(speed, speed)
  }

  /** stop(): both wheels at rest. */
  function Stop(): Command {
    Command(0.0, 0.0)
  }

  lemma StopAtRest()
    ensures Advance(Stop()) == 0.0 && Turn(Stop()) == 0.0
  {
  }

  /** The two rotations are each other's mirror image, and going straight or stopping is its
      own mirror image. */
  lemma MirrorPrimitives(speed: real)
    ensures Mirror(RotateLeft(speed)) == RotateRight(speed)
    ensures Mirror(RotateRight(speed)) == RotateLeft(speed)
    ensures Mirror(Forward(speed)) == Forward(speed)
    ensures Mirror(Stop()) == Stop()
  {
  }

  /** Neither wheel of c exceeds bound in magnitude. */
  predicate WithinSpeed(c: Command, bound: real) {
    -bound <= c.left <= bound && -bound <= c.right <= bound
  }
}

=== FILE: follower.dfy ===
/** The per-period step of the path follower: the robot's GPS position selects its grid cell
    (four cells per metre), the next cell of the planned path selects a target heading, and
    the robot either turns in place towards that heading or drives ahead; a cell whose centre
    is reached is dropped from the front of the path, and an exhausted path stops the robot. */
module PathFollower {
  import opened Wrappers
  import opened Grid
  import opened Drive
  import Geometry

  /** Half-width of the box around a cell's centre that counts as reaching it. */
  const Margin: real := 0.1
  /** Heading error, in degrees, within which the robot drives instead of turning. */
  const AngleVariation: real := 1.0
  /** Heading error, in degrees, below which the robot turns slowly. */
  const SlowBand: real := 20.0
  /** Wheel speed of a slow turn. */
  const SlowSpeed: real := 1.0
  /** Grid cells per metre of GPS coordinate. */
  const CellsPerMetre: real := 4.0

  /** Python's int() on a float: truncation towards zero. */
  function Trunc(x: real): (i: int)
    ensures 0.0 <= x ==> i as real <= x < i as real + 1.0
    ensures x < 0.0 ==> i as real - 1.0 < x <= i as real
  {
    if 0.0 <= x then x.Floor else -((-x).Floor)
  }

  /** The cell the robot stands in: its GPS x and y scaled by four and truncated. */
  function CellOf(x: real, y: real): (c: Cell)
    ensures 0.0 <= x && 0.0 <= y ==>
      c.row as real <= CellsPerMetre * x < c.row as real + 1.0 && c.col as real <= CellsPerMetre * y < c.col as real + 1.0
  {
    Cell(Trunc(x * CellsPerMetre), Trunc(y * CellsPerMetre))
  }

  /** get_world_angle: the compass bearing in degrees from the atan2 of the compass vector;
      every atan2 result gives an angle in [0, 360). */
  function WorldAngle(rad: real): (a: real)
    ensures -Geometry.Pi <= rad <= Geometry.Pi ==> 0.0 <= a < 360.0
    ensures rad == -1.5708 ==> a == 270.0
    ensures rad == Geometry.Pi - 1.5708 ==> a == 90.0
  {
    var b := (rad + 1.5708) / Geometry.Pi * 180.0 - 90.0;
    if b < 0.0 then b + 360.0 else b
  }

  /** The scaled position (fx, fy) lies strictly inside the box of half-width Margin around the
      centre of target. */
  predicate InArrivalBox(target: Cell, fx: real, fy: real) {
    && target.col as real + 0.5 + Margin > fy && target.col as real + 0.5 - Margin < fy
    && target.row as real + 0.5 + Margin > fx && target.row as real + 0.5 - Margin < fx
  }

  /** The heading towards next from here: a column change wins over a row change, with
      90 for a greater column, 270 for a smaller one, 180 for a smaller row and 0 for a
      greater one. Standing in next gives no heading, and no command is issued. */
  function TargetHeading(next: Cell, here: Cell): (h: Option<real>)
    ensures h.None? <==> next == here
    ensures next.col != here.col ==> h == Some(if next.col > here.col then 90.0 else 270.0)
    ensures next.col == here.col && next.row != here.row ==> h == Some(if next.row < here.row then 180.0 else 0.0)
  {
    if next.col > here.col then Some(90.0)
    else if next.col < here.col then Some(270.0)
    else if next.row < here.row then Some(180.0)
    else if next.row > here.row then Some(0.0)
    else None
  }

  /** The heading of each of the four moves of Actions. */
  lemma HeadingOfMove(here: Cell, k: nat)
    requires k < 4
    ensures TargetHeading(Step(here, k), here) == Some([90.0, 270.0, 0.0, 180.0][k])
  {
  }

  /** The heading error is within AngleVariation. */
  predicate Aligned(angle: real, target: real) {
    angle < target + AngleVariation && angle > target - AngleVariation
  }

  /** The turn-or-drive decision shared by the four direction branches: when aligned, drive
      ahead at full speed; otherwise turn in place, left when the angle is below the target
      and right when it is not, slowly within SlowBand and at full speed beyond. */
  function Steer(angle: real, target: real): (c: Command)
    ensures Aligned(angle, target) <==> c == Forward(MaxSpeed)
    ensures !Aligned(angle, target) ==> Advance(c) == 0.0
    ensures !Aligned(angle, target) ==> (Turn(c) > 0.0 <==> angle < target)
    ensures !Aligned(angle, target) ==>
      (Turn(c) == SlowSpeed || Turn(c) == -SlowSpeed <==> Geometry.Abs(angle - target) < SlowBand)
    ensures !Aligned(angle, target) && Geometry.Abs(angle - target) >= SlowBand ==>
      Turn(c) == MaxSpeed || Turn(c) == -MaxSpeed
    ensures WithinSpeed(c, MaxSpeed)
  {
    if !Aligned(angle, target) then
      var speed := if Geometry.Abs(angle - target) < SlowBand then SlowSpeed else MaxSpeed;
      if angle - target < 0.0 then RotateLeft(speed) else RotateRight(speed)
    else
      Forward(MaxSpeed)
  }

  /** Errors of the same size on either side of the target give mirror-image commands. */
  lemma SteerMirror(target: real, d: real)
    ensures Steer(target + d, target) == Mirror(Steer(target - d, target))
  {
    if d < 0.0 {
      assert Geometry.Abs(d) == Geometry.Abs(-d);
    }
  }

  /** Headings are compared without wrapping around 360: half a degree short of north the
      robot turns right at full speed instead of driving. */
  lemma SteerDoesNotWrap()
    ensures Steer(359.5, 0.0) == RotateRight(MaxSpeed)
  {
  }

  /** The robot's pose in one period: GPS x and y, and the compass angle in degrees
      (WorldAngle of the compass vector's atan2, so in [0, 360)). */
  datatype Pose = Pose(x: real, y: real, angle: real)

  /** The remaining path, the wheel command of the period (None when the source issues none
      and the motors keep their previous speeds), and whether the loop breaks at the goal. */
  datatype FollowerOutput = FollowerOutput(path: seq<Cell>, command: Option<Command>, done: bool)

  /** One period of the main loop. With two or more cells left, reaching the centre of the
      second cell drops the first; otherwise the robot steers towards the second cell. With
      at most one cell left the robot stops and the loop ends. */
  function FollowerStep(path: seq<Cell>, p: Pose): (o: FollowerOutput)
    ensures o.done <==> |path| <= 1
    ensures o.done ==> o.path == path && o.command == Some(Stop())
    ensures !o.done ==> (o.path == path[1..] <==> InArrivalBox(path[1], p.x * CellsPerMetre, p.y * CellsPerMetre))
    ensures !o.done && o.path == path[1..] ==> o.command.None?
    ensures !o.done && o.path != path[1..] ==> o.path == path
    ensures !o.done && !InArrivalBox(path[1], p.x * CellsPerMetre, p.y * CellsPerMetre) ==>
      (o.command.None? <==> CellOf(p.x, p.y) == path[1])
    ensures (!o.done && !InArrivalBox(path[1], p.x * CellsPerMetre, p.y * CellsPerMetre)
             && CellOf(p.x, p.y) != path[1]) ==>
      o.command == Some(Steer(p.angle, TargetHeading(path[1], CellOf(p.x, p.y)).value))
    ensures o.command.Some? ==> WithinSpeed(o.command.value, MaxSpeed)
  {
    if |path| > 1 then
      var fx := p.x * CellsPerMetre;
      var fy := p.y * CellsPerMetre;
      if InArrivalBox(path[1], fx, fy) then
        FollowerOutput(path[1..], None, false)
      else
        match TargetHeading(path[1], CellOf(p.x, p.y))
        case None => FollowerOutput(path, None, false)
        case Some(target) => FollowerOutput(path, Some(Steer(p.angle, target)), false)
    else
      FollowerOutput(path, Some(Stop()), true)
  }

  /** The loop over a sequence of poses, one per period, until it breaks or the poses run
      out. When it breaks, the result is the breaking period's output; when the poses run out
      first, it is the remaining path with no command and not done. The remaining path is
      always a suffix of the plan; the loop breaks only with at most one cell left, and then
      stops the robot. */
  function Run(path: seq<Cell>, poses: seq<Pose>): (o: FollowerOutput)
    ensures |o.path| <= |path| && o.path == path[|path| - |o.path|..]
    ensures o.done ==> |o.path| <= 1 && o.command == Some(Stop())
    ensures |poses| == 0 ==> o == FollowerOutput(path, None, false)
    ensures !o.done ==> o.command.None?
    decreases |poses|
  {
    if |poses| == 0 then FollowerOutput(path, None, false)
    else
      var o := FollowerStep(path, poses[0]);
      if o.done then o else Run(o.path, poses[1..])
  }

  /** Period i sees the robot at the centre of path[i + 1]. */
  predicate CentredOn(path: seq<Cell>, poses: seq<Pose>) {
    forall i :: 0 <= i < |path| - 1 && i < |poses| ==>
      InArrivalBox(path[i + 1], poses[i].x * CellsPerMetre, poses[i].y * CellsPerMetre)
  }

  /** When the robot stands at the centre of the next cell in every period, each period drops
      exactly one cell, with no command, until one cell is left; the following period stops the
      robot and ends the loop. */
  lemma {:induction false} CentredRunDrains(path: seq<Cell>, poses: seq<Pose>)
    requires CentredOn(path, poses) && |poses| >= |path| && |poses| >= 1
    ensures Run(path, poses).done && Run(path, poses).command == Some(Stop())
    ensures Run(path, poses).path == if |path| == 0 then [] else [path[|path| - 1]]
    decreases |poses|
  {
    if |path| > 1 {
      var o := FollowerStep(path, poses[0]);
      assert InArrivalBox(path[1], poses[0].x * CellsPerMetre, poses[0].y * CellsPerMetre);
      assert o.path == path[1..] && !o.done;
      forall i | 0 <= i < |path[1..]| - 1 && i < |poses[1..]|
        ensures InArrivalBox(path[1..][i + 1], poses[1..][i].x * CellsPerMetre, poses[1..][i].y * CellsPerMetre)
      {
        assert InArrivalBox(path[i + 2], poses[i + 1].x * CellsPerMetre, poses[i + 1].y * CellsPerMetre);
      }
      CentredRunDrains(path[1..], poses[1..]);
    }
  }
}

=== FILE: geometry.dfy ===
/** Plane geometry of the Bug2 controller: distances, the distance from a point to the line
    through two points, bearings and compass headings. Square roots are avoided by comparing
    squares; atan2 is supplied by the caller as the angle in radians it returns. */
module Geometry {
  import opened Wrappers

  /** The x and y GPS coordinates; the controller never reads z. */
  datatype Point = Point(x: real, y: real)

  /** Python's math.pi. */
  const Pi: real := 3.141592653589793

  // ----- real arithmetic -----

  /** Multiplying by a non-negative factor keeps an order. */
  lemma MulMono(a: real, b: real, c: real)
    requires a <= b && c >= 0.0
    ensures a * c <= b * c && c * a <= c * b
  {
    assert b * c - a * c == (b - a) * c;
  }

  /** Multiplying by a positive factor keeps a strict order. */
  lemma MulStrict(a: real, b: real, c: real)
    requires a < b && c > 0.0
    ensures a * c < b * c && c * a < c * b
  {
    assert b * c - a * c == (b - a) * c;
  }

  /** A square is never negative. */
  lemma Square(v: real)
    ensures v * v >= 0.0
  {
    if v > 0.0 {
      MulStrict(0.0, v, v);
    } else if v < 0.0 {
      assert v * v == (-v) * (-v);
      MulStrict(0.0, -v, -v);
    }
  }

  /** For lengths l, m >= 0: l <= m exactly when l * l <= m * m. */
  lemma SquareMonotone(l: real, m: real)
    requires l >= 0.0 && m >= 0.0
    ensures l <= m <==> l * l <= m * m
  {
    if l <= m {
      assert m * m - l * l == (m - l) * (m + l);
      MulMono(0.0, m - l, m + l);
    } else {
      assert l * l - m * m == (l - m) * (l + m);
      MulStrict(0.0, l - m, l + m);
    }
  }

  /** Comparing a quotient by l > 0 is comparing the product by l. */
  lemma QuotientLe(c: real, l: real, t: real)
    requires l > 0.0
    ensures c / l <= t <==> c <= t * l
  {
    QuotientTimes(c / l, c, l, t);
  }

  lemma QuotientTimes(q: real, c: real, l: real, t: real)
    requires l > 0.0 && q * l == c
    ensures q <= t <==> c <= t * l
  {
    if q <= t {
      MulMono(q, t, l);
    } else {
      MulStrict(t, q, l);
    }
  }

  function Abs(x: real): (r: real)
    ensures r >= 0.0 && (r == x || r == -x)
  {
    if x < 0.0 then -x else x
  }

  /** For l > 0: |c| <= t * l exactly when t >= 0 and c * c <= t * t * (l * l). */
  lemma AbsLeProduct(c: real, t: real, l: real)
    requires l > 0.0
    ensures Abs(c) <= t * l <==> t >= 0.0 && c * c <= t * t * (l * l)
  {
    var a := Abs(c);
    assert a * a == c * c;
    if t >= 0.0 {
      MulMono(0.0, t, l);
      SquareMonotone(a, t * l);
      assert (t * l) * (t * l) == t * t * (l * l);
    } else {
      MulStrict(t, 0.0, l);
    }
  }

  // ----- distances and the start-goal line -----

  /** v squared. */
  function Sq(v: real): (r: real)
    ensures r >= 0.0
  {
    Square(v);
    v * v
  }

  /** distancia_entre, squared. */
  function Dist2(a: Point, b: Point): (d: real)
    ensures d >= 0.0
  {
    Sq(a.x - b.x) + Sq(a.y - b.y)
  }

  /** distancia_entre(p, q) <= d, decided on squares. */
  predicate WithinDistance(p: Point, q: Point, d: real) {
    d >= 0.0 && Dist2(p, q) <= d * d
  }

  /** WithinDistance agrees with comparing the square-root distance: for the length l whose
      square is the squared distance, l <= d exactly when WithinDistance holds. */
  lemma WithinDistanceMeansLength(p: Point, q: Point, d: real, l: real)
    requires l >= 0.0 && l * l == Dist2(p, q)
    ensures WithinDistance(p, q, d) <==> l <= d
  {
    if d >= 0.0 {
      SquareMonotone(l, d);
    }
  }

  /** The numerator of distancia_desde_recta: |AB| times the signed distance of x from the
      line AB. */
  function Cross(x: Point, a: Point, b: Point): real {
    (b.y - a.y) * (a.x - x.x) - (b.x - a.x) * (a.y - x.y)
  }

  /** en_recta(x, A, B, tol): is x within tol of the line through A and B? The source divides
      by |AB|, so A == B has no answer (ZeroDivisionError), modelled as None. The test
      |Cross| / |AB| <= tol is decided on squares. */
  function OnLine(x: Point, a: Point, b: Point, tol: real): (r: Option<bool>)
    ensures r.None? <==> a == b
    ensures r == Some(true) ==> tol >= 0.0
  {
    if a == b then None
    else Some(tol >= 0.0 && Cross(x, a, b) * Cross(x, a, b) <= tol * tol * Dist2(a, b))
  }

  /** OnLine agrees with the source's formula: for the length l of AB, x is on the line exactly
      when |Cross| / l <= tol. */
  lemma OnLineMeansDistance(x: Point, a: Point, b: Point, tol: real, l: real)
    requires a != b && l > 0.0 && l * l == Dist2(a, b)
    ensures OnLine(x, a, b, tol) == Some(Abs(Cross(x, a, b)) / l <= tol)
  {
    QuotientLe(Abs(Cross(x, a, b)), l, tol);
    AbsLeProduct(Cross(x, a, b), tol, l);
  }

  /** Both ends of the segment lie on its line, for every tolerance that is not negative. */
  lemma EndsOnLine(a: Point, b: Point, tol: real)
    requires a != b && tol >= 0.0
    ensures OnLine(a, a, b, tol) == Some(true) && OnLine(b, a, b, tol) == Some(true)
  {
    assert Cross(a, a, b) == 0.0;
    assert Cross(b, a, b) == 0.0;
    Square(tol);
    MulMono(0.0, tol * tol, Dist2(a, b));
  }

  /** A point within one tolerance of the line is within every larger tolerance. */
  lemma OnLineMonotone(x: Point, a: Point, b: Point, tol: real, tol': real)
    requires OnLine(x, a, b, tol) == Some(true) && tol <= tol'
    ensures OnLine(x, a, b, tol') == Some(true)
  {
    SquareMonotone(tol, tol');
    MulMono(tol * tol, tol' * tol', Dist2(a, b));
  }

  // ----- angles -----

  /** Python's x % 360.0: the result lies in [0, 360) and differs from x by a whole number
      of turns. */
  function Mod360(x: real): (r: real)
    ensures 0.0 <= r < 360.0
    ensures (x - r) / 360.0 == ((x - r) / 360.0).Floor as real
  {
    x - (x / 360.0).Floor as real * 360.0
  }

  /** Mod360 leaves [0, 360) alone and adds a turn to [-360, 0). */
  lemma Mod360Small(x: real)
    ensures 0.0 <= x < 360.0 ==> Mod360(x) == x
    ensures -360.0 <= x < 0.0 ==> Mod360(x) == x + 360.0
  {
  }

  /** math.degrees. */
  function Degrees(rad: real): real {
    rad * 180.0 / Pi
  }

  /** angulo_de as intended: the bearing in degrees of an atan2 result, shifted by 90 and
      reduced modulo 360 into the range of the compass heading. */
  function Bearing(rad: real): (d: real)
    ensures 0.0 <= d < 360.0
    ensures -Pi < rad <= Pi ==> (d == 0.0 <==> rad == -Pi / 2.0)
  {
    Mod360Small(Degrees(rad) + 90.0);
    Mod360(Degrees(rad) + 90.0)
  }

  /** angulo_de as written: the modulo is applied to the radians before the conversion to
      degrees, so it leaves a non-negative angle alone and adds 360 radians to a negative one. */
  function BearingAsWritten(rad: real): (d: real)
    ensures 0.0 <= rad < 360.0 ==> d == Degrees(rad) + 90.0
    ensures -360.0 <= rad < 0.0 ==> d == Degrees(rad + 360.0) + 90.0
  {
    Mod360Small(rad);
    Degrees(Mod360(rad)) + 90.0
  }

  /** The two readings agree for every atan2 result from 0 to Pi, but every negative atan2
      result (a target towards negative y) gives a bearing beyond 20000 degrees. */
  lemma BearingAsWrittenDiverges(rad: real)
    requires -Pi < rad <= Pi
    ensures 0.0 <= rad ==> BearingAsWritten(rad) == Bearing(rad)
    ensures rad < 0.0 ==> BearingAsWritten(rad) > 20000.0
  {
    if 0.0 <= rad {
      Mod360Small(Degrees(rad) + 90.0);
    }
  }
}

=== FILE: grid.dfy ===
/** The occupancy grid shared by the A* planner and the path follower: cells, 4-connected
    adjacency, the neighbour query, the Manhattan heuristic and walks over free cells. */
module Grid {

  /** A grid position (row, column); compared by value and used as a map key. */
  datatype Cell = Cell(row: int, col: int)

  /** A maze as read from the grid file: row-major, 0 is free and any other value blocks. */
  type Maze = seq<seq<int>>

  /** A non-empty rectangular maze: the planner reads the column count from the first row. */
  predicate WellFormed(m: Maze) {
    |m| > 0 && forall i :: 0 <= i < |m| ==> |m[i]| == |m[0]|
  }

  function Abs(x: int): nat {
    if x < 0 then -x else x
  }

  predicate InBounds(m: Maze, c: Cell)
    requires WellFormed(m)
  {
    0 <= c.row < |m| && 0 <= c.col < |m[0]|
  }

  /** In bounds and free: the only cells the neighbour query ever returns. */
  predicate Passable(m: Maze, c: Cell)
    requires WellFormed(m)
  {
    InBounds(m, c) && m[c.row][c.col] == 0
  }

  /** 4-connected adjacency: exactly one row step or one column step apart. */
  predicate Adjacent(a: Cell, b: Cell) {
    Abs(a.row - b.row) + Abs(a.col - b.col) == 1
  }

  /** The four moves (row delta, column delta), in the order the neighbour query tries them. */
  const Actions: seq<(int, int)> := [(0, 1), (0, -1), (1, 0), (-1, 0)]

  function Step(c: Cell, k: nat): Cell
    requires k < 4
  {
    Cell(c.row + Actions[k].0, c.col + Actions[k].1)
  }

  lemma StepIsAdjacent(c: Cell, k: nat)
    requires k < 4
    ensures Adjacent(c, Step(c, k))
  {
  }

  /** The index in Actions of the move that leads from c to the adjacent cell n. */
  function Direction(c: Cell, n: Cell): (k: nat)
    requires Adjacent(c, n)
    ensures k < 4 && Step(c, k) == n
  {
    if n.col == c.col + 1 then 0
    else if n.col == c.col - 1 then 1
    else if n.row == c.row + 1 then 2
    else 3
  }

  /** The passable cells among the moves Actions[k..], tried in order. */
  function NeighborsFrom(m: Maze, c: Cell, k: nat): (r: seq<Cell>)
    requires WellFormed(m) && k <= 4
    ensures |r| <= 4 - k
    ensures forall i :: 0 <= i < |r| ==> Adjacent(c, r[i]) && Passable(m, r[i])
    ensures forall j :: k <= j < 4 && Passable(m, Step(c, j)) ==> Step(c, j) in r
    decreases 4 - k
  {
    if k == 4 then []
    else
      var rest := NeighborsFrom(m, c, k + 1);
      StepIsAdjacent(c, k);
      if Passable(m, Step(c, k)) then [Step(c, k)] + rest else rest
  }

  lemma {:induction false} NeighborsFromOrdered(m: Maze, c: Cell, k: nat)
    requires WellFormed(m) && k <= 4
    ensures var r := NeighborsFrom(m, c, k);
      && (forall i :: 0 <= i < |r| ==> k <= Direction(c, r[i]))
      && (forall i, j :: 0 <= i < j < |r| ==> Direction(c, r[i]) < Direction(c, r[j]))
    decreases 4 - k
  {
    if k < 4 {
      NeighborsFromOrdered(m, c, k + 1);
    }
  }

  /** get_neighbors: the in-bounds free cells one row or column step away. */
  function Neighbors(m: Maze, c: Cell): (r: seq<Cell>)
    requires WellFormed(m)
    ensures |r| <= 4
    ensures forall n :: n in r <==> Adjacent(c, n) && Passable(m, n)
  {
    var r := NeighborsFrom(m, c, 0);
    assert forall n :: Adjacent(c, n) && Passable(m, n) ==> n in r by {
      forall n | Adjacent(c, n) && Passable(m, n) ensures n in r {
        assert Step(c, Direction(c, n)) == n;
      }
    }
    r
  }

  /** get_neighbors lists its cells in the order of Actions (so without repeats). */
  lemma NeighborsInActionOrder(m: Maze, c: Cell)
    requires WellFormed(m)
    ensures var r := Neighbors(m, c);
      forall i, j :: 0 <= i < j < |r| ==> Direction(c, r[i]) < Direction(c, r[j])
  {
    assert Neighbors(m, c) == NeighborsFrom(m, c, 0);
    NeighborsFromOrdered(m, c, 0);
  }

  /** heuristic: the Manhattan distance from c to goal. */
  function Heuristic(c: Cell, goal: Cell): (h: nat)
    ensures h == 0 <==> c == goal
  {
    Abs(c.row - goal.row) + Abs(c.col - goal.col)
  }

  /** Consistency: one 4-connected step changes the heuristic by exactly one. */
  lemma HeuristicConsistent(a: Cell, b: Cell, goal: Cell)
    requires Adjacent(a, b)
    ensures Heuristic(a, goal) == Heuristic(b, goal) + 1 || Heuristic(b, goal) == Heuristic(a, goal) + 1
  {
  }

  /** A walk: every step goes to an adjacent passable cell. The first cell is not checked,
      as the planner never checks the start cell either. */
  ghost predicate IsWalk(m: Maze, q: seq<Cell>)
    requires WellFormed(m)
  {
    |q| > 0 && forall i :: 0 <= i < |q| - 1 ==> WalkStep(m, q, i)
  }

  /** Step i of q goes to an adjacent passable cell. */
  ghost predicate WalkStep(m: Maze, q: seq<Cell>, i: nat)
    requires WellFormed(m) && i < |q| - 1
  {
    Adjacent(q[i], q[i + 1]) && Passable(m, q[i + 1])
  }

  ghost predicate IsPathBetween(m: Maze, q: seq<Cell>, a: Cell, b: Cell)
    requires WellFormed(m)
  {
    IsWalk(m, q) && q[0] == a && q[|q| - 1] == b
  }

  /** Admissibility: the heuristic never exceeds the number of steps left on any walk to goal. */
  lemma {:induction false} HeuristicAdmissible(m: Maze, q: seq<Cell>, i: nat, goal: Cell)
    requires WellFormed(m) && IsWalk(m, q) && i < |q| && q[|q| - 1] == goal
    ensures Heuristic(q[i], goal) <= |q| - 1 - i
    decreases |q| - i
  {
    if i < |q| - 1 {
      assert WalkStep(m, q, i);
      HeuristicAdmissible(m, q, i + 1, goal);
      HeuristicConsistent(q[i], q[i + 1], goal);
    }
  }

  /** A walk extended by one adjacent passable cell is still a walk. */
  lemma WalkExtend(m: Maze, q: seq<Cell>, c: Cell)
    requires WellFormed(m) && IsWalk(m, q) && Adjacent(q[|q| - 1], c) && Passable(m, c)
    ensures IsWalk(m, q + [c]) && (q + [c])[0] == q[0]
  {
    var q' := q + [c];
    forall i | 0 <= i < |q'| - 1 ensures WalkStep(m, q', i) {
      if i < |q| - 1 {
        assert WalkStep(m, q, i);
      }
    }
  }

  /** Every prefix of a walk is a walk. */
  lemma WalkPrefix(m: Maze, q: seq<Cell>, n: nat)
    requires WellFormed(m) && IsWalk(m, q) && 0 < n <= |q|
    ensures IsWalk(m, q[..n])
  {
    forall i | 0 <= i < n - 1 ensures WalkStep(m, q[..n], i) {
      assert WalkStep(m, q, i);
    }
  }

  /** A walk cannot skip a row: between a cell at or above row r and a final cell at or below
      it, some cell lies on row r. */
  lemma {:induction false} WalkCrossesRow(m: Maze, q: seq<Cell>, i: nat, r: int) returns (j: nat)
    requires WellFormed(m) && IsWalk(m, q) && i < |q|
    requires q[i].row <= r <= q[|q| - 1].row
    ensures i <= j < |q| && q[j].row == r
    decreases |q| - i
  {
    if q[i].row == r {
      j := i;
    } else {
      assert WalkStep(m, q, i);
      j := WalkCrossesRow(m, q, i + 1, r);
    }
  }

  /** A walk through c is at least as long as the two Manhattan legs through c. */
  lemma WalkThrough(m: Maze, q: seq<Cell>, j: nat)
    requires WellFormed(m) && IsWalk(m, q) && j < |q|
    ensures Heuristic(q[0], q[j]) + Heuristic(q[j], q[|q| - 1]) + 1 <= |q|
  {
    HeuristicAdmissible(m, q, j, q[|q| - 1]);
    WalkPrefix(m, q, j + 1);
    HeuristicAdmissible(m, q[..j + 1], 0, q[j]);
  }
}

=== FILE: mazegen.dfy ===
/** The maze generator: a grid of 1 (obstacle) and 0 (free) whose size comes from the lengths
    of a name and a surname, framed by obstacles, with each interior cell an obstacle when its
    random draw falls below the obstacle density. The draws are an input, one sequence per
    interior row, in the order the source consumes them. */
module MazeGen {
  import opened Wrappers
  import Grid

  /** Interior cell: an obstacle exactly when the draw is below the density. */
  function CellFor(draw: real, density: real): (v: int)
    ensures v == 0 || v == 1
    ensures v == 1 <==> draw < density
  {
    if draw < density then 1 else 0
  }

  /** Python's len(s) * k - 2 interior rows or columns (negative for very short inputs). */
  function Interior(len: nat, multiplication: int): int {
    len * multiplication - 2
  }

  /** [1] * n in Python: n ones, none when n is not positive. */
  function Ones(n: int): (r: seq<int>)
    ensures |r| == if n > 0 then n else 0
    ensures forall j :: 0 <= j < |r| ==> r[j] == 1
  {
    if n > 0 then seq(n, _ => 1) else []
  }

  /** One interior row: a frame cell, one cell per draw, a frame cell. */
  method InteriorRow(draws: seq<real>, cols: nat, density: real) returns (row: seq<int>)
    requires |draws| >= cols
    ensures |row| == cols + 2
    ensures row[0] == 1 && row[cols + 1] == 1
    ensures forall j :: 1 <= j <= cols ==> row[j] == CellFor(draws[j - 1], density)
  {
    row := [1];
    var j := 0;
    while j < cols
      invariant 0 <= j <= cols && |row| == j + 1 && row[0] == 1
      invariant forall i :: 1 <= i <= j ==> row[i] == CellFor(draws[i - 1], density)
    {
      row := row + [CellFor(draws[j], density)];
      j := j + 1;
    }
    row := row + [1];
  }

  /** The shape of a generated maze with rows interior rows and cols interior columns: a top
      and a bottom row of Ones(cols + 2), and between them one framed row per interior row. */
  ghost predicate Generated(maze: seq<seq<int>>, rows: int, cols: int, draws: seq<seq<real>>, density: real)
    requires rows <= |draws| && forall i :: 0 <= i < rows ==> |draws[i]| >= cols
  {
    var n := if rows > 0 then rows else 0;
    var w := if cols > 0 then cols else 0;
    && |maze| == n + 2
    && maze[0] == Ones(cols + 2) && maze[n + 1] == Ones(cols + 2)
    && forall i :: 1 <= i <= n ==>
      && |maze[i]| == w + 2 && maze[i][0] == 1 && maze[i][w + 1] == 1
      && forall j :: 1 <= j <= w ==> maze[i][j] == CellFor(draws[i - 1][j - 1], density)
  }

  /** generate_maze(name, surname, density, multiplication) with its random() calls drawn
      from draws. */
  method GenerateMaze(name: string, surname: string, density: real, multiplication: int, draws: seq<seq<real>>)
    returns (maze: seq<seq<int>>)
    requires Interior(|name|, multiplication) <= |draws|
    requires forall i :: 0 <= i < Interior(|name|, multiplication) ==> |draws[i]| >= Interior(|surname|, multiplication)
    ensures Generated(maze, Interior(|name|, multiplication), Interior(|surname|, multiplication), draws, density)
  {
    var rows := Interior(|name|, multiplication);
    var cols := Interior(|surname|, multiplication);
    var w: nat := if cols > 0 then cols else 0;
    maze := [Ones(cols + 2)];
    var i := 0;
    while i < rows
      invariant 0 <= i && (rows > 0 ==> i <= rows) && (rows <= 0 ==> i == 0)
      invariant |maze| == i + 1 && maze[0] == Ones(cols + 2)
      invariant forall k :: 1 <= k <= i ==>
        && |maze[k]| == w + 2 && maze[k][0] == 1 && maze[k][w + 1] == 1
        && forall j :: 1 <= j <= w ==> maze[k][j] == CellFor(draws[k - 1][j - 1], density)
    {
      var row := InteriorRow(draws[i], w, density);
      maze := maze + [row];
      i := i + 1;
    }
    maze := maze + [Ones(cols + 2)];
  }

  /** With at least two rows and columns of cells, the maze is a rectangle of the size the
      source prints, len(name) * k by len(surname) * k, fully framed by obstacles. */
  lemma GeneratedIsFramedRectangle(maze: seq<seq<int>>, name: string, surname: string, multiplication: int,
                                   draws: seq<seq<real>>, density: real)
    requires Interior(|name|, multiplication) >= 0 && Interior(|surname|, multiplication) >= 0
    requires Interior(|name|, multiplication) <= |draws|
    requires forall i :: 0 <= i < Interior(|name|, multiplication) ==> |draws[i]| >= Interior(|surname|, multiplication)
    requires Generated(maze, Interior(|name|, multiplication), Interior(|surname|, multiplication), draws, density)
    ensures Grid.WellFormed(maze)
    ensures |maze| == |name| * multiplication && |maze[0]| == |surname| * multiplication
    ensures forall i, j :: 0 <= i < |maze| && 0 <= j < |maze[i]| ==> maze[i][j] == 0 || maze[i][j] == 1
    ensures forall i, j :: 0 <= i < |maze| && 0 <= j < |maze[i]| ==>
      (i == 0 || i == |maze| - 1 || j == 0 || j == |maze[i]| - 1 ==> maze[i][j] == 1)
  {
    var n := Interior(|name|, multiplication);
    var w := Interior(|surname|, multiplication);
    forall i, j | 0 <= i < |maze| && 0 <= j < |maze[i]| ensures maze[i][j] == 0 || maze[i][j] == 1 {
      if 1 <= i <= n && 1 <= j <= w {
        assert maze[i][j] == CellFor(draws[i - 1][j - 1], density);
      }
    }
  }

  /** Density 0 leaves the whole interior free, as random() is never below 0. */
  lemma DensityZeroIsOpen(maze: seq<seq<int>>, rows: int, cols: int, draws: seq<seq<real>>)
    requires rows <= |draws| && forall i :: 0 <= i < rows ==> |draws[i]| >= cols
    requires forall i, j :: 0 <= i < |draws| && 0 <= j < |draws[i]| ==> 0.0 <= draws[i][j] < 1.0
    requires Generated(maze, rows, cols, draws, 0.0)
    ensures forall i, j :: 1 <= i < |maze| - 1 && 1 <= j < |maze[i]| - 1 ==> maze[i][j] == 0
  {
    forall i, j | 1 <= i < |maze| - 1 && 1 <= j < |maze[i]| - 1 ensures maze[i][j] == 0 {
      assert maze[i][j] == CellFor(draws[i - 1][j - 1], 0.0);
    }
  }

  /** Density 1 fills the whole interior, as random() is always below 1. */
  lemma DensityOneIsSolid(maze: seq<seq<int>>, rows: int, cols: int, draws: seq<seq<real>>)
    requires rows <= |draws| && forall i :: 0 <= i < rows ==> |draws[i]| >= cols
    requires forall i, j :: 0 <= i < |draws| && 0 <= j < |draws[i]| ==> 0.0 <= draws[i][j] < 1.0
    requires Generated(maze, rows, cols, draws, 1.0)
    ensures forall i, j :: 0 <= i < |maze| && 0 <= j < |maze[i]| ==> maze[i][j] == 1
  {
    forall i, j | 0 <= i < |maze| && 0 <= j < |maze[i]| ensures maze[i][j] == 1 {
      if 1 <= i < |maze| - 1 && 1 <= j < |maze[i]| - 1 {
        assert maze[i][j] == CellFor(draws[i - 1][j - 1], 1.0);
      }
    }
  }

  /** The error main reports for a density outside [0, 1]. */
  datatype DensityError = DensityOutOfRange

  /** main's guard before generating: a density outside [0, 1] is an error and nothing is
      generated; otherwise the maze is generated. */
  method BuildMaze(name: string, surname: string, density: real, multiplication: int, draws: seq<seq<real>>)
    returns (r: Result<seq<seq<int>>, DensityError>)
    requires Interior(|name|, multiplication) <= |draws|
    requires forall i :: 0 <= i < Interior(|name|, multiplication) ==> |draws[i]| >= Interior(|surname|, multiplication)
    ensures r.Failure? <==> !(0.0 <= density <= 1.0)
    ensures r.Success? ==>
      Generated(r.value, Interior(|name|, multiplication), Interior(|surname|, multiplication), draws, density)
  {
    if !(0.0 <= density <= 1.0) {
      return Failure(DensityOutOfRange);
    }
    var maze := GenerateMaze(name, surname, density, multiplication, draws);
    r := Success(maze);
  }
}

=== FILE: planner.dfy ===
/** The A* grid planner of the path-follower controller: a binary heap of (priority, cell)
    entries, the cost_so_far and came_from maps, and the back-walk over came_from. */
module Planner {
  import opened Wrappers
  import opened Grid

  /** A heap entry. Entries compare like the source's (priority, (row, col)) tuples. */
  datatype Entry = Entry(priority: nat, cell: Cell)

  /** Lexicographic order on (priority, row, column): the order heappop follows. */
  predicate EntryLe(a: Entry, b: Entry) {
    || a.priority < b.priority
    || (a.priority == b.priority && a.cell.row < b.cell.row)
    || (a.priority == b.priority && a.cell.row == b.cell.row && a.cell.col <= b.cell.col)
  }

  /** heappop's choice: the index of an entry no larger than any other. */
  method PopMin(f: seq<Entry>) returns (k: nat)
    requires |f| > 0
    ensures k < |f|
    ensures forall i :: 0 <= i < |f| ==> EntryLe(f[k], f[i])
  {
    k := 0;
    var i := 1;
    while i < |f|
      invariant 1 <= i <= |f| && k < i
      invariant forall j :: 0 <= j < i ==> EntryLe(f[k], f[j])
    {
      if !EntryLe(f[k], f[i]) {
        k := i;
      }
      i := i + 1;
    }
  }

  /** The heap after popping the entry at index k. */
  function Remove(f: seq<Entry>, k: nat): (r: seq<Entry>)
    requires k < |f|
    ensures multiset(r) == multiset(f) - multiset{f[k]}
  {
    assert f == f[..k] + [f[k]] + f[k + 1..];
    f[..k] + f[k + 1..]
  }

  /** The search state: the heap, came_from and cost_so_far. */
  datatype Search = Search(frontier: seq<Entry>, cameFrom: map<Cell, Option<Cell>>, costSoFar: map<Cell, nat>)

  /** The state before the first iteration: only the start, with cost 0 and no parent. */
  function Initial(start: Cell): Search {
    Search([Entry(0, start)], map[start := None], map[start := 0])
  }

  /** One relaxation: next gets cost newCost and parent cur, and is pushed again. */
  function Relax(s: Search, cur: Cell, next: Cell, newCost: nat, goal: Cell): Search {
    Search(s.frontier + [Entry(newCost + Heuristic(next, goal), next)],
           s.cameFrom[next := Some(cur)],
           s.costSoFar[next := newCost])
  }

  // ----- invariants of the search loop -----

  /** The start keeps cost 0 and no parent; any other discovered cell is passable and its
      parent is an adjacent discovered cell of strictly lower cost. */
  ghost predicate CellOk(m: Maze, start: Cell, s: Search, c: Cell)
    requires WellFormed(m) && c in s.costSoFar && c in s.cameFrom
  {
    if c == start then
      s.costSoFar[c] == 0 && s.cameFrom[c] == None
    else
      && Passable(m, c)
      && s.cameFrom[c].Some?
      && s.cameFrom[c].value in s.costSoFar
      && Adjacent(s.cameFrom[c].value, c)
      && s.costSoFar[s.cameFrom[c].value] < s.costSoFar[c]
  }

  /** The came_from tree: parents strictly decrease in cost down to the start. */
  ghost predicate Tree(m: Maze, start: Cell, s: Search)
    requires WellFormed(m)
  {
    && s.costSoFar.Keys == s.cameFrom.Keys
    && start in s.costSoFar
    && forall c {:trigger CellOk(m, start, s, c)} :: c in s.costSoFar ==> CellOk(m, start, s, c)
  }

  /** Every heap entry names a discovered cell and, the start's entry aside, its priority is at
      least the cell's current cost plus the heuristic (costs only go down after a push). */
  ghost predicate FrontierOk(start: Cell, goal: Cell, s: Search) {
    forall e :: e in s.frontier ==>
      e.cell in s.costSoFar && (e.cell == start || s.costSoFar[e.cell] + Heuristic(e.cell, goal) <= e.priority)
  }

  /** Once the goal is discovered some heap entry names it, until that entry is popped. */
  ghost predicate GoalTracked(goal: Cell, s: Search) {
    goal in s.costSoFar ==> exists p: nat :: Entry(p, goal) in s.frontier
  }

  /** Costs stay below the number of discovered cells; as every discovered cell is the start
      or in bounds, they stay below the size of the universe and the search is finite. */
  ghost predicate Bounded(s: Search) {
    forall c :: c in s.costSoFar ==> s.costSoFar[c] < |s.costSoFar.Keys|
  }

  ghost predicate Invariant(m: Maze, start: Cell, goal: Cell, s: Search)
    requires WellFormed(m)
  {
    Tree(m, start, s) && FrontierOk(start, goal, s) && GoalTracked(goal, s) && Bounded(s)
  }

  /** Every passable neighbour of c is discovered at a cost at most one above c's. */
  ghost predicate Expanded(m: Maze, cost: map<Cell, nat>, c: Cell)
    requires WellFormed(m) && c in cost
  {
    forall n :: Adjacent(c, n) && Passable(m, n) ==> n in cost && cost[n] <= cost[c] + 1
  }

  /** Some heap entry for c has a priority at most c's cost plus the heuristic. */
  ghost predicate Queued(goal: Cell, s: Search, c: Cell)
    requires c in s.costSoFar
  {
    exists p: nat :: Entry(p, c) in s.frontier && p <= s.costSoFar[c] + Heuristic(c, goal)
  }

  /** A discovered cell is either expanded at its current cost or still waiting in the heap. */
  ghost predicate Settled(m: Maze, goal: Cell, s: Search, c: Cell)
    requires WellFormed(m) && c in s.costSoFar
  {
    Expanded(m, s.costSoFar, c) || Queued(goal, s, c)
  }

  ghost predicate SettledExcept(m: Maze, goal: Cell, s: Search, x: Cell)
    requires WellFormed(m)
  {
    forall c {:trigger Settled(m, goal, s, c)} :: c in s.costSoFar && c != x ==> Settled(m, goal, s, c)
  }

  ghost predicate AllSettled(m: Maze, goal: Cell, s: Search)
    requires WellFormed(m)
  {
    forall c {:trigger Settled(m, goal, s, c)} :: c in s.costSoFar ==> Settled(m, goal, s, c)
  }

  // ----- termination measure -----

  /** Every in-bounds cell of an r-by-c grid, row by row. */
  function Cells(rows: nat, cols: nat): (s: seq<Cell>)
    ensures forall c: Cell :: 0 <= c.row < rows && 0 <= c.col < cols ==> c in s
  {
    if rows == 0 then []
    else
      var last := seq(cols, j => Cell(rows - 1, j));
      var r := Cells(rows - 1, cols) + last;
      assert forall c: Cell :: c.row == rows - 1 && 0 <= c.col < cols ==> c in r by {
        forall c: Cell | c.row == rows - 1 && 0 <= c.col < cols ensures c in r {
          assert r[|r| - cols + c.col] == c;
        }
      }
      r
  }

  /** Sum over u of each cell's cost, or of b for an undiscovered cell. Every relaxation
      lowers one term, so the sum bounds the number of pushes. */
  function Potential(u: seq<Cell>, cost: map<Cell, nat>, b: nat): nat
    decreases |u|
  {
    if |u| == 0 then 0
    else (if u[0] in cost then cost[u[0]] else b) + Potential(u[1..], cost, b)
  }

  lemma {:induction false} PotentialDecreases(u: seq<Cell>, cost: map<Cell, nat>, b: nat, n: Cell, v: nat)
    requires n in cost ==> v < cost[n]
    requires n !in cost ==> v < b
    ensures Potential(u, cost[n := v], b) <= Potential(u, cost, b)
    ensures n in u ==> Potential(u, cost[n := v], b) < Potential(u, cost, b)
    decreases |u|
  {
    if |u| > 0 {
      PotentialDecreases(u[1..], cost, b, n, v);
      if n != u[0] {
        assert n in u ==> n in u[1..];
      }
    }
  }

  /** A set drawn from the elements of u has at most |u| members. */
  lemma {:induction false} CardinalityBound(s: set<Cell>, u: seq<Cell>)
    requires forall c :: c in s ==> c in u
    ensures |s| <= |u|
    decreases |u|
  {
    if |u| == 0 {
      assert s == {};
    } else {
      var s' := s - {u[0]};
      forall c | c in s' ensures c in u[1..] {
        assert c in u && c != u[0];
      }
      CardinalityBound(s', u[1..]);
    }
  }

  /** Every in-bounds cell and the start: every cell the search can discover. */
  ghost function Universe(m: Maze, start: Cell): seq<Cell>
    requires WellFormed(m)
  {
    Cells(|m|, |m[0]|) + [start]
  }

  lemma InUniverse(m: Maze, start: Cell, c: Cell)
    requires WellFormed(m) && (InBounds(m, c) || c == start)
    ensures c in Universe(m, start)
  {
  }

  // ----- one relaxation and one pop preserve the invariants -----

  lemma RelaxKeepsTree(m: Maze, start: Cell, s: Search, cur: Cell, next: Cell, goal: Cell)
    requires WellFormed(m) && Tree(m, start, s)
    requires cur in s.costSoFar && Adjacent(cur, next) && Passable(m, next)
    requires next !in s.costSoFar || s.costSoFar[cur] + 1 < s.costSoFar[next]
    ensures next != start
    ensures Tree(m, start, Relax(s, cur, next, s.costSoFar[cur] + 1, goal))
  {
    var s' := Relax(s, cur, next, s.costSoFar[cur] + 1, goal);
    assert CellOk(m, start, s, start);
    forall c | c in s'.costSoFar ensures CellOk(m, start, s', c) {
      if c != next {
        assert CellOk(m, start, s, c);
      }
    }
  }

  /** Every discovered cell is in the universe. */
  lemma DiscoveredInUniverse(m: Maze, start: Cell, s: Search)
    requires WellFormed(m) && Tree(m, start, s)
    ensures forall c :: c in s.costSoFar ==> c in Universe(m, start)
  {
    forall c | c in s.costSoFar ensures c in Universe(m, start) {
      assert CellOk(m, start, s, c);
      InUniverse(m, start, c);
    }
  }

  /** Discovering a new cell keeps the discovered set inside the universe, so it grows by one
      but stays no larger than the universe. */
  lemma DiscoverKeepsBounded(m: Maze, start: Cell, s: Search, next: Cell, v: nat, u: seq<Cell>)
    requires WellFormed(m) && u == Universe(m, start) && Tree(m, start, s) && Bounded(s)
    requires next !in s.costSoFar && Passable(m, next) && v <= |s.costSoFar.Keys|
    ensures Bounded(s.(costSoFar := s.costSoFar[next := v]))
    ensures v < |u|
  {
    var keys := s.costSoFar[next := v].Keys;
    assert keys == s.costSoFar.Keys + {next};
    assert |keys| == |s.costSoFar.Keys| + 1;
    DiscoveredInUniverse(m, start, s);
    InUniverse(m, start, next);
    CardinalityBound(keys, u);
  }

  lemma RelaxKeepsBounded(m: Maze, start: Cell, s: Search, cur: Cell, next: Cell, goal: Cell, u: seq<Cell>)
    requires WellFormed(m) && u == Universe(m, start) && Tree(m, start, s) && Bounded(s)
    requires cur in s.costSoFar && Adjacent(cur, next) && Passable(m, next)
    requires next !in s.costSoFar || s.costSoFar[cur] + 1 < s.costSoFar[next]
    ensures Bounded(Relax(s, cur, next, s.costSoFar[cur] + 1, goal))
    ensures Potential(u, Relax(s, cur, next, s.costSoFar[cur] + 1, goal).costSoFar, |u|)
          < Potential(u, s.costSoFar, |u|)
  {
    var v := s.costSoFar[cur] + 1;
    InUniverse(m, start, next);
    if next !in s.costSoFar {
      DiscoverKeepsBounded(m, start, s, next, v, u);
    } else {
      assert s.costSoFar[next := v].Keys == s.costSoFar.Keys;
    }
    PotentialDecreases(u, s.costSoFar, |u|, next, v);
  }

  lemma RelaxKeepsFrontier(m: Maze, start: Cell, goal: Cell, s: Search, cur: Cell, next: Cell)
    requires WellFormed(m) && FrontierOk(start, goal, s) && GoalTracked(goal, s)
    requires SettledExcept(m, goal, s, cur)
    requires cur in s.costSoFar && cur != next
    requires next !in s.costSoFar || s.costSoFar[cur] + 1 < s.costSoFar[next]
    ensures var s' := Relax(s, cur, next, s.costSoFar[cur] + 1, goal);
      FrontierOk(start, goal, s') && GoalTracked(goal, s') && SettledExcept(m, goal, s', cur)
  {
    var v := s.costSoFar[cur] + 1;
    var s' := Relax(s, cur, next, v, goal);
    assert Entry(v + Heuristic(next, goal), next) in s'.frontier;
    forall c | c in s'.costSoFar && c != cur ensures Settled(m, goal, s', c) {
      if c == next {
        assert Queued(goal, s', c);
      } else {
        assert Settled(m, goal, s, c);
        if Expanded(m, s.costSoFar, c) {
          assert Expanded(m, s'.costSoFar, c);
        } else {
          var p: nat :| Entry(p, c) in s.frontier && p <= s.costSoFar[c] + Heuristic(c, goal);
          assert Entry(p, c) in s'.frontier;
        }
      }
    }
    if goal in s.costSoFar {
      var p: nat :| Entry(p, goal) in s.frontier;
      assert Entry(p, goal) in s'.frontier;
    }
  }

  lemma PopPreserves(m: Maze, start: Cell, goal: Cell, s: Search, k: nat, u: seq<Cell>)
    requires WellFormed(m) && Invariant(m, start, goal, s) && AllSettled(m, goal, s)
    requires k < |s.frontier| && s.frontier[k].cell != goal
    ensures var s' := s.(frontier := Remove(s.frontier, k));
      Invariant(m, start, goal, s') && SettledExcept(m, goal, s', s.frontier[k].cell)
  {
    var f' := Remove(s.frontier, k);
    var s' := s.(frontier := f');
    forall c | c in s'.costSoFar ensures CellOk(m, start, s', c) {
      assert CellOk(m, start, s, c);
    }
    forall e | e in s.frontier && e != s.frontier[k] ensures e in f' {
      assert multiset(f')[e] == multiset(s.frontier)[e];
    }
    forall e | e in f' ensures e in s.frontier {
      assert multiset(f')[e] <= multiset(s.frontier)[e];
    }
    forall c | c in s'.costSoFar && c != s.frontier[k].cell ensures Settled(m, goal, s', c) {
      assert Settled(m, goal, s, c);
      if !Expanded(m, s.costSoFar, c) {
        var p: nat :| Entry(p, c) in s.frontier && p <= s.costSoFar[c] + Heuristic(c, goal);
        assert Entry(p, c) in f';
      }
    }
    if goal in s.costSoFar {
      var p: nat :| Entry(p, goal) in s.frontier;
      assert Entry(p, goal) in f';
    }
  }

  /** One relaxation keeps every invariant except that cur may still be unexpanded, leaves
      cur's cost alone, lowers no cost but next's, and strictly lowers the measure. */
  lemma RelaxPreserves(m: Maze, start: Cell, goal: Cell, s: Search, cur: Cell, next: Cell, u: seq<Cell>, s': Search)
    requires WellFormed(m) && u == Universe(m, start)
    requires Invariant(m, start, goal, s) && SettledExcept(m, goal, s, cur)
    requires cur in s.costSoFar && Adjacent(cur, next) && Passable(m, next)
    requires next !in s.costSoFar || s.costSoFar[cur] + 1 < s.costSoFar[next]
    requires s' == Relax(s, cur, next, s.costSoFar[cur] + 1, goal)
    ensures
      && Invariant(m, start, goal, s') && SettledExcept(m, goal, s', cur)
      && cur in s'.costSoFar && s'.costSoFar[cur] == s.costSoFar[cur]
      && s'.costSoFar[next] == s.costSoFar[cur] + 1
      && (forall c :: c in s.costSoFar ==> c in s'.costSoFar && s'.costSoFar[c] <= s.costSoFar[c])
      && Potential(u, s'.costSoFar, |u|) < Potential(u, s.costSoFar, |u|)
  {
    RelaxKeepsTree(m, start, s, cur, next, goal);
    RelaxKeepsBounded(m, start, s, cur, next, goal, u);
    RelaxKeepsFrontier(m, start, goal, s, cur, next);
  }

  ghost predicate ConsiderPost(m: Maze, start: Cell, goal: Cell, s: Search, cur: Cell, next: Cell, u: seq<Cell>, s': Search)
    requires WellFormed(m)
  {
    && Invariant(m, start, goal, s') && SettledExcept(m, goal, s', cur)
    && cur in s.costSoFar && cur in s'.costSoFar && s'.costSoFar[cur] == s.costSoFar[cur]
    && next in s'.costSoFar && s'.costSoFar[next] <= s.costSoFar[cur] + 1
    && (forall c :: c in s.costSoFar ==> c in s'.costSoFar && s'.costSoFar[c] <= s.costSoFar[c])
    && Potential(u, s'.costSoFar, |u|) <= Potential(u, s.costSoFar, |u|)
    && (|s'.frontier| == |s.frontier| || Potential(u, s'.costSoFar, |u|) < Potential(u, s.costSoFar, |u|))
  }

  /** The effect of considering next from cur: when next is new or the route through cur is
      cheaper, next gets cost cur's plus one and parent cur, and is pushed with that cost plus
      its heuristic; otherwise nothing changes. */
  predicate Considered(s: Search, cur: Cell, next: Cell, goal: Cell, s': Search)
    requires cur in s.costSoFar
  {
    if next !in s.costSoFar || s.costSoFar[cur] + 1 < s.costSoFar[next] then
      && s'.costSoFar == s.costSoFar[next := s.costSoFar[cur] + 1]
      && s'.cameFrom == s.cameFrom[next := Some(cur)]
      && s'.frontier == s.frontier + [Entry(s.costSoFar[cur] + 1 + Heuristic(next, goal), next)]
    else
      s' == s
  }

  /** The body of the loop over get_neighbors(current): next is relaxed when it is new or the
      route through cur is cheaper. Afterwards next costs at most cur's cost plus one, no cost
      has grown, and the measure has shrunk if anything was pushed. */
  method Consider(m: Maze, start: Cell, goal: Cell, s: Search, cur: Cell, next: Cell, ghost u: seq<Cell>)
    returns (s': Search)
    requires WellFormed(m) && u == Universe(m, start)
    requires Invariant(m, start, goal, s) && SettledExcept(m, goal, s, cur)
    requires cur in s.costSoFar && Adjacent(cur, next) && Passable(m, next)
    ensures ConsiderPost(m, start, goal, s, cur, next, u, s')
    ensures Considered(s, cur, next, goal, s')
  {
    var newCost := s.costSoFar[cur] + 1;
    if next !in s.costSoFar || newCost < s.costSoFar[next] {
      s' := Relax(s, cur, next, newCost, goal);
      assert Considered(s, cur, next, goal, s');
      RelaxPreserves(m, start, goal, s, cur, next, u, s');
      assert ConsiderPost(m, start, goal, s, cur, next, u, s');
    } else {
      s' := s;
      assert Considered(s, cur, next, goal, s');
      assert ConsiderPost(m, start, goal, s, cur, next, u, s');
    }
  }

  /** Once every neighbour returned by get_neighbors is within one of cur's cost, cur is expanded. */
  lemma NeighborsCovered(m: Maze, cost: map<Cell, nat>, cur: Cell, nb: seq<Cell>)
    requires WellFormed(m) && cur in cost && nb == Neighbors(m, cur)
    requires forall i :: 0 <= i < |nb| ==> nb[i] in cost && cost[nb[i]] <= cost[cur] + 1
    ensures Expanded(m, cost, cur)
  {
    forall n | Adjacent(cur, n) && Passable(m, n) ensures n in cost && cost[n] <= cost[cur] + 1 {
      var i :| 0 <= i < |nb| && nb[i] == n;
    }
  }

  /** The first j neighbours stay within c when no cost grows, and with neighbour j within c
      so are the first j + 1. */
  lemma CoveredSoFar(nb: seq<Cell>, j: nat, c: nat, cost: map<Cell, nat>, cost': map<Cell, nat>)
    requires j < |nb|
    requires forall i :: 0 <= i < j ==> nb[i] in cost && cost[nb[i]] <= c
    requires forall x :: x in cost ==> x in cost' && cost'[x] <= cost[x]
    requires nb[j] in cost' && cost'[nb[j]] <= c
    ensures forall i :: 0 <= i <= j ==> nb[i] in cost' && cost'[nb[i]] <= c
  {
    forall i | 0 <= i <= j ensures nb[i] in cost' && cost'[nb[i]] <= c {
      if i < j {
        assert nb[i] in cost;
      }
    }
  }

  /** The measure has not grown from s to s', and has shrunk unless the heap kept its size. */
  ghost predicate NoWorse(u: seq<Cell>, s: Search, s': Search) {
    && Potential(u, s'.costSoFar, |u|) <= Potential(u, s.costSoFar, |u|)
    && (|s'.frontier| == |s.frontier| || Potential(u, s'.costSoFar, |u|) < Potential(u, s.costSoFar, |u|))
  }

  /** The relaxation loop over get_neighbors(current): afterwards cur is expanded, the
      invariants hold again, and the termination measure has not grown (it has shrunk if
      anything was pushed). */
  method Expand(m: Maze, start: Cell, goal: Cell, s: Search, cur: Cell, ghost u: seq<Cell>) returns (s': Search)
    requires WellFormed(m) && u == Universe(m, start)
    requires Invariant(m, start, goal, s) && SettledExcept(m, goal, s, cur)
    requires cur in s.costSoFar
    ensures Invariant(m, start, goal, s') && SettledExcept(m, goal, s', cur)
    ensures cur in s'.costSoFar && Expanded(m, s'.costSoFar, cur)
    ensures NoWorse(u, s, s')
  {
    var nb := Neighbors(m, cur);
    s' := s;
    var j := 0;
    while j < |nb|
      invariant 0 <= j <= |nb|
      invariant Invariant(m, start, goal, s') && SettledExcept(m, goal, s', cur)
      invariant cur in s'.costSoFar && s'.costSoFar[cur] == s.costSoFar[cur]
      invariant forall i :: 0 <= i < j ==> nb[i] in s'.costSoFar && s'.costSoFar[nb[i]] <= s.costSoFar[cur] + 1
      invariant NoWorse(u, s, s')
    {
      var s2 := Consider(m, start, goal, s', cur, nb[j], u);
      CoveredSoFar(nb, j, s.costSoFar[cur] + 1, s'.costSoFar, s2.costSoFar);
      s' := s2;
      j := j + 1;
    }
    NeighborsCovered(m, s'.costSoFar, cur, nb);
  }

  // ----- the search loop and its optimality -----

  /** The goal is discovered at a cost below the length of every path from the start to it. */
  ghost predicate Optimal(m: Maze, start: Cell, goal: Cell, s: Search)
    requires WellFormed(m)
  {
    goal in s.costSoFar && forall q :: IsPathBetween(m, q, start, goal) ==> s.costSoFar[goal] < |q|
  }

  lemma InitialInvariant(m: Maze, start: Cell, goal: Cell)
    requires WellFormed(m)
    ensures Invariant(m, start, goal, Initial(start)) && AllSettled(m, goal, Initial(start))
  {
    var s := Initial(start);
    assert CellOk(m, start, s, start);
    assert Queued(goal, s, start);
    assert Entry(0, start) in s.frontier;
  }

  /** Following a walk to the goal from its j-th cell, which is discovered at a cost of at most
      j: either the goal is discovered at a cost below the walk's length, or the first cell of
      the walk not yet expanded has a heap entry whose priority is below the walk's length. */
  lemma {:induction false} WalkWitness(m: Maze, start: Cell, goal: Cell, s: Search, q: seq<Cell>, j: nat)
    returns (i: int)
    requires WellFormed(m) && Invariant(m, start, goal, s) && AllSettled(m, goal, s)
    requires IsWalk(m, q) && q[|q| - 1] == goal && j < |q|
    requires q[j] in s.costSoFar && s.costSoFar[q[j]] <= j
    ensures (goal in s.costSoFar && s.costSoFar[goal] < |q|)
         || (0 <= i < |s.frontier| && s.frontier[i].priority < |q|)
    decreases |q| - j
  {
    assert Settled(m, goal, s, q[j]);
    if !Expanded(m, s.costSoFar, q[j]) {
      var p: nat :| Entry(p, q[j]) in s.frontier && p <= s.costSoFar[q[j]] + Heuristic(q[j], goal);
      HeuristicAdmissible(m, q, j, goal);
      i :| 0 <= i < |s.frontier| && s.frontier[i] == Entry(p, q[j]);
    } else if j == |q| - 1 {
      i := -1;
    } else {
      assert WalkStep(m, q, j);
      i := WalkWitness(m, start, goal, s, q, j + 1);
    }
  }

  /** The key fact behind A*'s optimality: for every path from the start to the goal, either
      the goal is already discovered at a cost below the path's length or some heap entry has a
      priority below it. */
  lemma FrontierWitness(m: Maze, start: Cell, goal: Cell, s: Search, q: seq<Cell>) returns (i: int)
    requires WellFormed(m) && Invariant(m, start, goal, s) && AllSettled(m, goal, s)
    requires IsPathBetween(m, q, start, goal)
    ensures (goal in s.costSoFar && s.costSoFar[goal] < |q|)
         || (0 <= i < |s.frontier| && s.frontier[i].priority < |q|)
  {
    assert CellOk(m, start, s, start);
    i := WalkWitness(m, start, goal, s, q, 0);
  }

  /** When heappop returns the goal, its cost is optimal. */
  lemma GoalPoppedOptimal(m: Maze, start: Cell, goal: Cell, s: Search, k: nat)
    requires WellFormed(m) && Invariant(m, start, goal, s) && AllSettled(m, goal, s)
    requires k < |s.frontier| && s.frontier[k].cell == goal
    requires forall i :: 0 <= i < |s.frontier| ==> EntryLe(s.frontier[k], s.frontier[i])
    ensures Optimal(m, start, goal, s)
    ensures var s' := s.(frontier := Remove(s.frontier, k));
      Tree(m, start, s') && Optimal(m, start, goal, s')
  {
    var s' := s.(frontier := Remove(s.frontier, k));
    forall c | c in s'.costSoFar ensures CellOk(m, start, s', c) {
      assert CellOk(m, start, s, c);
    }
    assert s.frontier[k] in s.frontier;
    assert CellOk(m, start, s, start);
    forall q | IsPathBetween(m, q, start, goal) ensures s.costSoFar[goal] < |q| {
      var i := FrontierWitness(m, start, goal, s, q);
      if 0 <= i < |s.frontier| && s.frontier[i].priority < |q| {
        assert EntryLe(s.frontier[k], s.frontier[i]);
      }
    }
  }

  /** When the heap runs dry before the goal is popped, the goal was never discovered and no
      path reaches it. */
  lemma ExhaustedNoPath(m: Maze, start: Cell, goal: Cell, s: Search)
    requires WellFormed(m) && Invariant(m, start, goal, s) && AllSettled(m, goal, s)
    requires |s.frontier| == 0
    ensures goal !in s.costSoFar
    ensures forall q :: !IsPathBetween(m, q, start, goal)
  {
    forall q ensures !IsPathBetween(m, q, start, goal) {
      if IsPathBetween(m, q, start, goal) {
        var i := FrontierWitness(m, start, goal, s, q);
      }
    }
  }

  /** The while-frontier loop of astar: pop the least entry, stop on the goal, otherwise relax
      its neighbours. It ends either with the goal popped at an optimal cost, or with the heap
      empty and the goal unreachable. */
  method Explore(m: Maze, start: Cell, goal: Cell) returns (s: Search, found: bool)
    requires WellFormed(m)
    ensures Tree(m, start, s)
    ensures found ==> Optimal(m, start, goal, s)
    ensures !found ==> goal !in s.costSoFar && forall q :: !IsPathBetween(m, q, start, goal)
  {
    ghost var u := Universe(m, start);
    s := Initial(start);
    found := false;
    InitialInvariant(m, start, goal);
    while |s.frontier| > 0 && !found
      invariant Tree(m, start, s)
      invariant !found ==> Invariant(m, start, goal, s) && AllSettled(m, goal, s)
      invariant found ==> Optimal(m, start, goal, s)
      decreases Potential(u, s.costSoFar, |u|), |s.frontier|
    {
      var k := PopMin(s.frontier);
      var cur := s.frontier[k].cell;
      if cur == goal {
        GoalPoppedOptimal(m, start, goal, s, k);
        s := s.(frontier := Remove(s.frontier, k));
        assert Tree(m, start, s);
        found := true;
      } else {
        assert s.frontier[k] in s.frontier;
        PopPreserves(m, start, goal, s, k, u);
        var s1 := s.(frontier := Remove(s.frontier, k));
        s := Expand(m, start, goal, s1, cur, u);
      }
    }
    if !found {
      ExhaustedNoPath(m, start, goal, s);
    }
  }

  /** The back-walk over came_from from c to the start. A cell that was never discovered makes
      the source raise KeyError, modelled as None. The walk found is a path from the start
      to c, no longer than c's cost plus one. */
  function Reconstruct(m: Maze, start: Cell, s: Search, c: Cell): (r: Option<seq<Cell>>)
    requires WellFormed(m) && Tree(m, start, s)
    ensures r.Some? <==> c in s.cameFrom
    ensures r.Some? ==> IsPathBetween(m, r.value, start, c) && |r.value| <= s.costSoFar[c] + 1
    decreases if c in s.costSoFar then s.costSoFar[c] else 0
  {
    if c == start then Some([start])
    else if c !in s.cameFrom then None
    else
      assert CellOk(m, start, s, c);
      var rest := Reconstruct(m, start, s, s.cameFrom[c].value);
      WalkExtend(m, rest.value, c);
      Some(rest.value + [c])
  }

  /** astar: a shortest 4-connected path of free cells from start to goal, or None (the source's
      KeyError) exactly when no such path exists. */
  method AStar(m: Maze, start: Cell, goal: Cell) returns (r: Option<seq<Cell>>)
    requires WellFormed(m)
    ensures r.Some? ==> IsPathBetween(m, r.value, start, goal)
    ensures r.Some? ==> forall q :: IsPathBetween(m, q, start, goal) ==> |r.value| <= |q|
    ensures r.None? <==> forall q :: !IsPathBetween(m, q, start, goal)
  {
    var s, found := Explore(m, start, goal);
    r := Reconstruct(m, start, s, goal);
  }

  // ----- a wall with one gap -----

  /** A 5-by-5 free grid with row 2 walled except for column 2. */
  const WallGap: Maze := [
    [0, 0, 0, 0, 0],
    [0, 0, 0, 0, 0],
    [1, 1, 0, 1, 1],
    [0, 0, 0, 0, 0],
    [0, 0, 0, 0, 0]]

  /** Every path from (0, 0) to (4, 4) through WallGap passes the gap and has at least nine cells. */
  lemma WallGapPathsUseGap(q: seq<Cell>)
    requires IsPathBetween(WallGap, q, Cell(0, 0), Cell(4, 4))
    ensures Cell(2, 2) in q && |q| >= 9
  {
    var j := WalkCrossesRow(WallGap, q, 0, 2);
    assert j > 0;
    assert WalkStep(WallGap, q, j - 1);
    assert q[j] == Cell(2, 2);
    WalkThrough(WallGap, q, j);
  }

  /** A nine-cell path through the gap. */
  lemma WallGapHasPath()
    ensures IsPathBetween(WallGap, [Cell(0, 0), Cell(0, 1), Cell(0, 2), Cell(1, 2), Cell(2, 2),
                                    Cell(3, 2), Cell(4, 2), Cell(4, 3), Cell(4, 4)], Cell(0, 0), Cell(4, 4))
  {
    var q := [Cell(0, 0), Cell(0, 1), Cell(0, 2), Cell(1, 2), Cell(2, 2),
              Cell(3, 2), Cell(4, 2), Cell(4, 3), Cell(4, 4)];
    forall i | 0 <= i < |q| - 1 ensures WalkStep(WallGap, q, i) {
    }
  }

  /** Planning across WallGap from (0, 0) to (4, 4) yields a nine-cell path through the gap. */
  method PlanWallGap() returns (r: Option<seq<Cell>>)
    ensures r.Some? && |r.value| == 9 && Cell(2, 2) in r.value
  {
    WallGapHasPath();
    r := AStar(WallGap, Cell(0, 0), Cell(4, 4));
    WallGapPathsUseGap(r.value);
  }
}

=== FILE: wrappers.dfy ===
/** Failure-carrying results used where the controllers raise or return nothing. */
module Wrappers {

  /** A value that may be absent (the source's `None`, or a lookup that raises). */
  datatype Option<+T> = None | Some(value: T)

  /** Either a value or an error describing why there is none. */
  datatype Result<+T, +E> = Success(value: T) | Failure(error: E)
}
